=== FILE: README.md ===
# ioisis core, modelled in Dafny

ioisis reads and writes CDS/ISIS bibliographic records. This project models
three parts of it:

- **The subfield tokenizer** (`SubfieldParser`, ioisis/fieldutils.py). It splits
  one field, text or bytes, into ordered (key, value) pairs at a marker prefix.
  - The pattern `(?:^|P(.{L}))(.*?)(?=$|P.{L})` is modelled as a boundary scan
    (`IsBoundary`, `NextBoundary`, `Segments`).
  - The loop of `__call__` covers the empty filter, the `first` key, lowercasing
    and numbering. It is a method with a loop (`EmitAll`) proved against the
    fold `Emit`, which follows the code as written, and it is also split into
    stages (`Retained`, `BaseKeys`, `Number`).
  - The numbering the docstring and the tests describe is modelled beside it
    (`NumberIntended`, `EmitIntended`, `ParseIntended`). `ParseAgrees` proves
    that the two parses differ only in their numbering suffixes.
  - Text and bytes are the two instances (`Text`, `Bytes`) of one generic
    model over `Alphabet<T>`.
- **The pure pieces of the ISO 2709 record model** (ioisis/iso.py):
  - the ASCII-decimal integer adapter;
  - the suffix check/trim adapter;
  - the `num_fields` formula;
  - the directory contiguity check;
  - CR/LF stripping;
  - `con2dict`, as a method with a loop proved against the fold `Grouped`.
    The fold takes a key rule: `AsWritten` is the code's key, and `Intended`
    is the key the test module expects.
- **The `Unnest` adapter and the `_sizeof` arithmetic of `LineSplitRestreamed`**
  (ioisis/ccons.py).

Modules:

- `Wrappers`: `Result`, and the errors the source raises.
- `Decimal`: numerals as digit values.
- `Ascii`: bytes, digit bytes, ASCII lowercasing.
- `Fieldutils`: the tokenizer.
- `FieldutilsExamples`: rows of the tokenizer test tables, worked through the model.
- `Iso`: the ISO 2709 pieces.
- `Ccons`: `Unnest` and `_sizeof`.

The members that model the program (`Call`, `EmitAll`, `Parse`, `Con2Dict`,
`LineSplitSizeTuple`) follow the code as written. Three places where the code
departs from what its docstring or tests expect are listed under "## Findings",
and each has a corrected definition beside the as-written one.

In these corners the code behaves as follows, and so does the model:

- **A short marker is not a split.** A marker with fewer than L units after it
  is no boundary. It stays inside the value, because the lookahead `P.{L}`
  needs all L units.
- **`first` replaces every empty key.** This includes the key of a zero-length
  marker, not only the leading segment's key (ioisis/fieldutils.py:73-74).
- **There is no configuration error at construction.** The model states the one
  requirement the scan needs, a non-empty prefix, as `SubfieldParser.Valid()`.
  A negative length cannot be expressed (`length: nat`).
- **There is no joiner.** The only inverse is the test module's resynthesis
  expression, modelled as `Resynth`.

## Model

| member | source | states |
|---|---|---|
| Decimal.Digits | ioisis/iso.py:27 | `%d` writes at least one digit; the leading digit is 0 only for the number 0 |
| Decimal.ValueOfDigits | ioisis/iso.py:23 | reading back the numeral of n gives n |
| Decimal.DigitsOfValue | ioisis/iso.py:23 | a numeral without a leading zero is the one `%d` writes for its value |
| Decimal.ValueLeadingZeros | ioisis/iso.py:23 | leading zeros do not change the value `int(obj, base=10)` reads |
| Decimal.DigitsFit | ioisis/iso.py:25-27 | n has at most w digits exactly when n < 10^w |
| Ascii.DigitBytes | ioisis/iso.py:27 | each digit d becomes the byte 48 + d, so the result is all ASCII digits |
| Ascii.DigitValues | ioisis/iso.py:23 | each ASCII digit byte b becomes the digit b - 48 |
| Ascii.LowerByte | ioisis/fieldutils.py:75-76 | `bytes.lower()` on one byte: only A..Z move, by 32 |
| Ascii.LowerChar | ioisis/fieldutils.py:75-76 | lowercasing of one character: only A..Z move, by 32 |
| Fieldutils.LowerText | ioisis/fieldutils.py:75-76 | `key.lower()` on text: same length, every character lowered |
| Fieldutils.LowerBytes | ioisis/fieldutils.py:75-76 | `key.lower()` on bytes: same length, every byte lowered |
| Fieldutils.Alphabet.Format | ioisis/fieldutils.py:60-64 | `percent_d % n`: one digit unit per digit of the shortest numeral of n |
| Fieldutils.SubfieldParser.NextBoundary | ioisis/fieldutils.py:59 | the lazy `(.*?)` stops at the least boundary at or after j; no boundary lies before it |
| Fieldutils.SubfieldParser.After | ioisis/fieldutils.py:59 | a value ends at a boundary at or after its key's end |
| Fieldutils.SubfieldParser.Segments | ioisis/fieldutils.py:59-71 | `findall` yields at least one pair, and the first pair's key is empty |
| Fieldutils.SubfieldParser.SegmentsSpans | ioisis/fieldutils.py:59-71 | one leading segment plus one per marker, in order; the leading value runs to the first marker; each later key is the L units after its marker; its value runs to the next marker or the end; no value contains a boundary |
| Fieldutils.SubfieldParser.PairsFromSpans | ioisis/fieldutils.py:59-71 | the same, for the scan from any boundary on |
| Fieldutils.SubfieldParser.KeyLength | ioisis/fieldutils.py:59 | every non-leading raw key is exactly L units long |
| Fieldutils.SubfieldParser.SegmentsResynth | tests/test_fieldutils.py:136-147 | segmentation loses nothing: the leading value, then P + k[:L] + v for each later segment, is the field |
| Fieldutils.SubfieldParser.PairsFromRejoin | tests/test_fieldutils.py:137-141 | rejoining the pairs scanned from boundary b gives the field from b on |
| Fieldutils.SubfieldParser.Cut | tests/test_fieldutils.py:139 | `k[:L]` has at most L units, is a prefix of k, and is k when k is short enough |
| Fieldutils.SubfieldParser.RejoinCut | tests/test_fieldutils.py:137-141 | rejoining depends only on the values and on the keys cut to L units |
| Fieldutils.SubfieldParser.ResynthCut | tests/test_fieldutils.py:137-141 | so does resynthesis, which ignores the leading key |
| Fieldutils.SubfieldParser.Suffix | ioisis/fieldutils.py:79-80 | the suffix is empty exactly when `zero` is off and the count is 0 |
| Fieldutils.SubfieldParser.NumberedKey | ioisis/fieldutils.py:77-80 | the emitted key extends the base key, and equals it without `number` |
| Fieldutils.SubfieldParser.Call | ioisis/fieldutils.py:68-82 | `__call__` yields exactly `Parse`: the segments, filtered, keyed and numbered as the code does it |
| Fieldutils.SubfieldParser.EmitAll | ioisis/fieldutils.py:70-82 | the loop over the matches computes the fold `Emit`. The Counter starts empty, is read with the base key and is bumped with the emitted key, as line 82 does |
| Fieldutils.SubfieldParser.CallKey | ioisis/fieldutils.py:73-80 | the key the loop computes by reassignment is `NumberedKey` of `BaseKey` |
| Fieldutils.SubfieldParser.Retained | ioisis/fieldutils.py:72 | with `empty` every pair is kept; every retained pair has a kept value; every raw pair with a kept value is retained; there are never more pairs than in the input |
| Fieldutils.SubfieldParser.BaseKeys | ioisis/fieldutils.py:73-76 | each key is `first`-substituted and then lowercased, one for one |
| Fieldutils.SubfieldParser.EmitStages | ioisis/fieldutils.py:70-82 | the loop yields the retained values. Its keys are the retained base keys numbered by `Number`, and dropped pairs do not touch the Counter |
| Fieldutils.SubfieldParser.NumberCounts | ioisis/fieldutils.py:77-82 | as written, the suffix of each key comes from the count of earlier emitted keys equal to its base key |
| Fieldutils.SubfieldParser.NumberOff | ioisis/fieldutils.py:77 | as written, without `number` keys are unchanged |
| Fieldutils.SubfieldParser.NumberRepeatedKey | ioisis/fieldutils.py:77-82 | as written, a key repeated n+1 times gives k, then k1 n times (without `zero`); with `zero` every occurrence is k0 |
| Fieldutils.SubfieldParser.NumberIntendedOff | ioisis/fieldutils.py:77 | intended numbering: without `number`, keys are unchanged |
| Fieldutils.SubfieldParser.NumberIntendedCounts | ioisis/fieldutils.py:22-33 | intended numbering: each key's suffix comes from the count of earlier equal base keys |
| Fieldutils.SubfieldParser.EmitIntendedStages | ioisis/fieldutils.py:22-33 | intended loop: the retained values, with their base keys numbered by `NumberIntended` |
| Fieldutils.SubfieldParser.ParseIntendedStages | ioisis/fieldutils.py:22-33 | intended parse: the retained segments' values, with their base keys numbered by `NumberIntended` |
| Fieldutils.SubfieldParser.ParseAgrees | ioisis/fieldutils.py:68-82 | the parse as written and the intended parse have the same length and the same values. Each key begins with the same base key in both, and without `number` the two parses are equal |
| Fieldutils.SubfieldParser.NumberIntendedRepeatedKey | ioisis/fieldutils.py:22-33 | intended numbering: the i-th occurrence of a key gets the suffix for i ("", 1, 2, … or 0, 1, 2, …) |
| Fieldutils.SubfieldParser.EmitKeepsAll | ioisis/fieldutils.py:72 | with `empty`, one pair per raw pair, same value; without `lower`, a non-empty raw key begins its emitted key |
| Fieldutils.SubfieldParser.RetainedDropsEmpty | ioisis/fieldutils.py:72 | without `empty`, the retained values are the non-empty ones, in order |
| Fieldutils.SubfieldParser.ParseStages | ioisis/fieldutils.py:68-82 | the parse's values are the retained segments' values; its keys are their base keys, numbered by `Number` as the code does it |
| Fieldutils.SubfieldParser.ParseKeepsEverySegment | ioisis/fieldutils.py:59-72 | with `empty`, pairs = markers used + 1, each carrying its segment's value in order |
| Fieldutils.SubfieldParser.ParseDropsEmptyValues | ioisis/fieldutils.py:72 | without `empty`, exactly the empty values are dropped; the rest keep their order |
| Fieldutils.SubfieldParser.ParseResynth | tests/test_fieldutils.py:136-147 | round trip: with `empty` and without `lower`, resynthesising the parse gives the field back |
| Fieldutils.SubfieldParser.CutPrefix | tests/test_fieldutils.py:139 | a key that begins with an L-unit raw key cuts to that raw key |
| Fieldutils.SubfieldParser.ParseCutAt | tests/test_fieldutils.py:139 | a later emitted key cut to L units is its raw key, since numbering only appends |
| Fieldutils.SubfieldParser.ParseEmptyField | tests/test_fieldutils.py:15-18 | an empty field gives [] without `empty`, and one pair with an empty value with it |
| Fieldutils.SubfieldParser.FirstReplacesEmptyKeys | ioisis/fieldutils.py:73-76 | without `number`, `first` replaces every empty key, then lowercasing applies; other keys are only lowercased |
| FieldutilsExamples.FormatSmall | ioisis/fieldutils.py:80 | `"%d"` writes 0, 1 and 2 as "0", "1", "2" |
| FieldutilsExamples.BoundariesLengthZero | tests/test_fieldutils.py:53-57 | prefix "a" with L = 0 on "data": the scan stops at 1, 3 and 4 |
| FieldutilsExamples.SegmentsLengthZero | tests/test_fieldutils.py:53-57 | "data" splits into ("", "d"), ("", "t"), ("", "") |
| FieldutilsExamples.NumberLengthZero | tests/test_fieldutils.py:53-57 | as written, three empty keys are numbered "", "1", "1" |
| FieldutilsExamples.IntendedLengthZero | tests/test_fieldutils.py:53-57 | the intended numbering gives the expected "", "1", "2" |
| FieldutilsExamples.KeysLengthZero | tests/test_fieldutils.py:53-57 | the intended parse's keys are "", "1", "2" |
| FieldutilsExamples.ValuesLengthZero | tests/test_fieldutils.py:53-57 | the values are "d", "t", "", for both parses |
| FieldutilsExamples.LengthZeroKeepEmpty | tests/test_fieldutils.py:53-57 | the intended parse gives the whole row: [("", "d"), ("1", "t"), ("2", "")] |
| FieldutilsExamples.BoundariesLeadingMarker | tests/test_fieldutils.py:24-26 | prefix "d" on "data": the scan stops at the leading marker and at the end |
| FieldutilsExamples.SegmentsLeadingMarker | tests/test_fieldutils.py:24-26 | "data" with prefix "d" splits into ("", ""), ("a", "ta"), as the test row expects |
| FieldutilsExamples.BoundariesNoNumber | tests/test_fieldutils.py:58-61 | prefix "a" with L = 0 on "ðata": the scan stops at 1, 3 and 4 |
| FieldutilsExamples.SegmentsNoNumber | tests/test_fieldutils.py:58-61 | "ðata" splits into ("", "ð"), ("", "t"), ("", "") |
| FieldutilsExamples.KeysNoNumber | tests/test_fieldutils.py:58-61 | without numbering, the parse's keys are "", "", "" |
| FieldutilsExamples.ValuesNoNumber | tests/test_fieldutils.py:58-61 | the parse's values are "ð", "t", "" |
| FieldutilsExamples.NoNumberKeepEmpty | tests/test_fieldutils.py:58-61 | the parse gives the whole row: [("", "ð"), ("", "t"), ("", "")] |
| FieldutilsExamples.NoNumberResynth | tests/test_fieldutils.py:136-147 | for this row both numberings agree, and resynthesising the parse gives "ðata" back |
| FieldutilsExamples.KeysAsWrittenLengthZero | ioisis/fieldutils.py:77-82 | for this row, the parse as written gives the keys "", "1", "1" |
| FieldutilsExamples.AsWrittenLengthZero | ioisis/fieldutils.py:68-82 | what the code yields for this row: [("", "d"), ("1", "t"), ("1", "")] |
| FieldutilsExamples.BoundariesFirstEmptyZero | tests/test_fieldutils.py:82-86 | prefix "i" on "ioisis test": the scan stops at 0, 2, 4 and the end |
| FieldutilsExamples.SegmentsFirstEmptyZero | tests/test_fieldutils.py:82-86 | "ioisis test" splits into ("", ""), ("o", ""), ("s", ""), ("s", " test") |
| FieldutilsExamples.SuffixesFirstEmptyZero | ioisis/fieldutils.py:77-80 | with `zero`, each base key's suffix is read from the Counter under that key |
| FieldutilsExamples.NumberFirstEmptyZero | ioisis/fieldutils.py:77-82 | as written, "_", "o", "s", "s" are numbered "_0", "o0", "s0", "s0" |
| FieldutilsExamples.KeysAsWrittenFirstEmptyZero | ioisis/fieldutils.py:77-82 | the as-written parse of the modelled segmentation of this row has the keys "_0", "o0", "s0", "s0" |
| FieldutilsExamples.AsWrittenFirstEmptyZero | ioisis/fieldutils.py:68-82 | the as-written parse of the modelled segmentation of this row: [("_0", ""), ("o0", ""), ("s0", ""), ("s0", " test")] |
| FieldutilsExamples.IntendedFirstEmptyZero | tests/test_fieldutils.py:82-86 | the intended numbering gives the expected "_0", "o0", "s0", "s1" |
| FieldutilsExamples.KeysFirstEmptyZero | tests/test_fieldutils.py:82-86 | the intended parse's keys are "_0", "o0", "s0", "s1" |
| FieldutilsExamples.ValuesFirstEmptyZero | tests/test_fieldutils.py:82-86 | the values are "", "", "", " test", for both parses |
| FieldutilsExamples.FirstEmptyZero | tests/test_fieldutils.py:82-86 | the intended parse gives the whole row: [("_0", ""), ("o0", ""), ("s0", ""), ("s1", " test")] |
| Iso.ZeroBytes | ioisis/iso.py:27 | k bytes, all b"0" |
| Iso.FormatInt | ioisis/iso.py:27 | `b"%d" % n`: a minus sign for a negative n, then the digit bytes of its magnitude |
| Iso.ZFill | ioisis/iso.py:27 | `zfill` adds exactly as many bytes as the width exceeds the length |
| Iso.ZFillShape | ioisis/iso.py:27 | the added bytes are b"0"s, after a leading sign if any; the rest is unchanged |
| Iso.EncodeIntShape | ioisis/iso.py:25-27 | a non-negative n encodes to digits only, at least the width long; a negative one keeps its sign first |
| Iso.EncodeIntPadded | ioisis/iso.py:25-27 | a non-negative n encodes as b"0"s up to the width, then its numeral |
| Iso.EncodeIntFits | ioisis/iso.py:25-27 | the encoding is exactly the width long iff n < 10^width, and longer otherwise |
| Iso.DecodeEncodeInt | ioisis/iso.py:22-27 | decoding an encoded non-negative n gives n, whatever the width |
| Iso.EncodeDecodeInt | ioisis/iso.py:22-27 | a field of ASCII digits, decoded and re-encoded at its width, is unchanged, leading zeros included |
| Iso.EncodeDecodeSignificant | ioisis/iso.py:22-27 | the same, for a field without leading zeros |
| Iso.DecodeLeadingZero | ioisis/iso.py:23 | a leading b"0" does not change the decoded value |
| Iso.EncodeOneMore | ioisis/iso.py:27 | one more unit of width adds one more leading b"0" |
| Iso.TrimSuffix | ioisis/iso.py:40-43 | CheckError exactly when the bytes do not end with the suffix; otherwise the bytes without it (empty for an empty suffix) |
| Iso.AppendSuffix | ioisis/iso.py:45-46 | the bytes, followed by the suffix |
| Iso.TrimAppend | ioisis/iso.py:40-46 | for a non-empty suffix, decoding what was encoded gives it back |
| Iso.AppendTrim | ioisis/iso.py:40-46 | bytes that end with a non-empty suffix are decoded and re-encoded unchanged |
| Iso.NumFields | ioisis/iso.py:69 | `(base_addr - 25) // 12` is the n with 12n + 25 <= base_addr < 12n + 37 |
| Iso.NumFieldsOfLayout | ioisis/iso.py:53-78 | a 24-byte leader, 12 bytes per entry and a terminator give back the entry count |
| Iso.DirectoryContiguousOffsets | ioisis/iso.py:79-85 | the check passes iff every field starts at the sum of the lengths before it |
| Iso.ContiguousPrefix | ioisis/iso.py:79-85 | under the check, entry i starts at the sum of the lengths of entries 0..i-1 |
| Iso.StripCrLf | ioisis/iso.py:100 | stripping never lengthens the data |
| Iso.StripCrLfRemoves | ioisis/iso.py:100 | no CR or LF byte is left |
| Iso.StripCrLfKeeps | ioisis/iso.py:100 | every other byte occurs as often as before |
| Iso.StripCrLfChunks | ioisis/iso.py:100-101 | stripping one byte at a time gives the same result as stripping all at once |
| Iso.StripCrLfIdentity | ioisis/iso.py:100 | data without CR or LF is unchanged |
| Iso.LStripZeros | ioisis/iso.py:112 | `lstrip(b"0")`: a suffix of the tag, not starting with b"0", after only b"0"s |
| Iso.AsciiText | ioisis/iso.py:112 | ASCII decoding keeps the length and every code point |
| Iso.TagKeyOfCases | ioisis/iso.py:112 | as written: an all-zero tag gives the bytes key b"0"; any other ASCII tag gives a non-empty text key; a byte above 127 fails |
| Iso.StrippedAscii | ioisis/iso.py:112 | stripping leading zeros neither creates nor removes a non-ASCII byte |
| Iso.StrippedEmpty | ioisis/iso.py:112 | only an all-zero tag strips down to nothing |
| Iso.TagKeyIntendedIsText | tests/test_iso.py:4-11 | the intended key is always text; "0" for an all-zero tag, as written otherwise; fails exactly on non-ASCII |
| Iso.TagZeroKey | tests/test_iso.py:4-11 | b"000" gives b"0" as written and "0" as intended |
| Iso.TagLeadingZeroKey | ioisis/iso.py:112 | b"010" gives "10": only leading zeros go |
| Iso.Tags | ioisis/iso.py:111 | the directory's tags, in order |
| Iso.KeyOfErr | ioisis/iso.py:112 | under either key rule, a tag fails exactly when it is not ASCII, and then with UnicodeDecodeError |
| Iso.Con2Dict | ioisis/iso.py:108-114 | the loop computes `Grouped` with the key as written, over the pairs `zip` forms, stopping at the shorter list |
| Iso.Con2DictStep | ioisis/iso.py:111-113 | one more entry appends its field to its key's list |
| Iso.Con2DictFails | ioisis/iso.py:112 | a tag that fails to decode fails the whole conversion |
| Iso.GroupedSnoc | ioisis/iso.py:113 | `result[tag].append(field)`: the last entry's field goes at the end of its key's list, starting from [] |
| Iso.GroupedErrPersists | ioisis/iso.py:112 | once the conversion has failed, it stays failed, with UnicodeDecodeError |
| Iso.GroupedOnlyDecodeErrors | ioisis/iso.py:112 | the only failure is UnicodeDecodeError |
| Iso.GroupedFails | ioisis/iso.py:112 | the conversion fails exactly when some tag is not ASCII (field decoding is not modelled) |
| Iso.GroupedSelects | ioisis/iso.py:110-113 | otherwise each key's list is the fields whose tag maps to it, in directory order, and the keys present are exactly those that some tag maps to |
| Iso.GroupedTagZero | tests/test_iso.py:4-11 | with the intended key, a record with one b"000" field b"data" gives {"0": [b"data"]} |
| Iso.GroupedTagZeroAsWritten | ioisis/iso.py:108-114 | as written, the same record gives {b"0": [b"data"]} |
| Iso.GroupedRulesAgree | ioisis/iso.py:112 | when no tag is all zeros, the key as written and the intended key give the same dictionary |
| Ccons.UnnestStep | ioisis/ccons.py:66-67 | an absent name leaves the dict alone; a leaf, a value `update` rejects, fails the conversion with UpdateError; a sub-dict is popped and merged over the other keys |
| Ccons.Unnest.Decode | ioisis/ccons.py:63-68 | `_decode` computes `Unnested`, processing the names in order on a copy |
| Ccons.Unnest.Encode | ioisis/ccons.py:70-74 | `_encode` computes `Nested` on a copy |
| Ccons.Nested | ioisis/ccons.py:70-74 | the keys are the original ones plus the names; each name maps to the whole original; every other key keeps its value |
| Ccons.UnnestedAbsent | ioisis/ccons.py:65-66 | names absent all along are ignored |
| Ccons.UnnestedKeepsOthers | ioisis/ccons.py:65-67 | a key neither listed nor merged keeps its value, or stays absent |
| Ccons.DecodeEncode | ioisis/ccons.py:63-74 | decoding what was encoded gives the dict back, when no name was already a key |
| Ccons.UnnestedNestedRest | ioisis/ccons.py:63-68 | the invariant of that decoding: the original plus names still to be processed, bound to it |
| Ccons.LineCount | ioisis/ccons.py:54 | `n // line_len + 1` counts the lines started, a full last line starting an empty one |
| Ccons.LineSplitSize | ioisis/ccons.py:52-54 | the size is the data plus one newline per line started |
| Ccons.LineSplitSizeTuple | ioisis/ccons.py:52-54 | as written, the size comes back wrapped in a 1-tuple |
| Ccons.LineSplitSizeDefaults | ioisis/ccons.py:9-10 | with 80-byte lines and b"\n", 160 bytes give (163,) as written and 163 as intended |

## Left out

- Fieldutils.SubfieldParser.Call: requires that the field does not end in the newline unit. Python's `$` also matches just before a final newline, which changes the last segment; this regex corner is not modelled.
- Fieldutils.SubfieldParser.Valid: an empty prefix, which gives a degenerate pattern, is excluded rather than modelled.
- Unicode case mapping of `str.lower()` is not modelled. Text keys are lowered ASCII-only (`Ascii.LowerChar`), and `bytes.lower()` is ASCII-only anyway.
- Iso.EncodeDecodeInt: requires a field of ASCII digits. The leniency of Python's `int()` (whitespace, signs, underscores) is not modelled.
- The `construct` framing of ioisis/iso.py (Struct, Restreamed, Embedded, Const, Default, Rebuild) is not modelled. The field width that `IntInASCII._encode` takes from `subcon.sizeof(**context)` is a parameter.
- `con2dict` decodes each field with the given encoding, which is a codec outside this model. The fields are kept as values of any type.
- Iso.Con2Dict, Iso.GroupedFails: the failure of `field_value.decode(encoding)` (ioisis/iso.py:113) is not modelled. In the source an undecodable field, such as a byte above 127 with `encoding="ascii"` or the byte 0x81 with the default cp1252, raises UnicodeDecodeError after the earlier entries were appended and before any later tag is read. The model's failure covers tags only.
- The `IntInASCII` adapter of ioisis/ccons.py:13-20 is the same code as the one in ioisis/iso.py:20-27. It is modelled once, by the `Iso` members.
- `LineSplitRestreamed._parse` and `_build` wrap a stream class from `streamutils`. streamutils is not part of this model.
- Ccons.LineCount: requires a positive line length. A zero line length raises ZeroDivisionError in the source; that error path is not modelled.
- Ccons.UnnestStep: a popped value is either a sub-dictionary or a leaf, and a leaf fails the conversion with one error, `UpdateError`. Python's `dict.update` raises TypeError for a non-iterable value and ValueError for an iterable whose items are not pairs. It merges an iterable of pairs, and an empty str, bytes or list merges nothing and raises nothing. Those non-dict values that `update` accepts are not modelled.
- Fieldutils.SubfieldParser.Segments: for a field that starts with a marker, the model splits at that marker, so "data" with prefix "d" gives ("", ""), ("a", "ta") (`SegmentsLeadingMarker`). Python's regular expression engine does otherwise. From Python 3.7 on, the match after the leading empty match may start at the same position but must not be empty, so it takes the `^` branch and runs to the next boundary: the marker and its key fall into a keyless value, ("", ""), ("", "data"). Before 3.7 the leading marker is skipped. The test rows that start with a marker (tests/test_fieldutils.py:24-26, 36 and 82-86) expect the model's split, not the engine's.
- Iso.Con2Dict: the dictionary is a map, so the order in which keys first appear, which a `defaultdict` keeps, is not represented. The order of the fields within each key's list is kept.
- Ccons.Unnest.Decode: the dictionary is a map, so the key order that `copy`, `pop` and `update` produce is not represented.
- Dictionaries are Dafny maps, that is values, so the copies `Unnest` makes and the aliasing between a nested name and the original object are not represented.
- `__call__` is a generator. The model returns the whole list of pairs.
- ioisis/__main__.py (CLI, JSON streaming), ioisis/mst.py and ioisis/java.py (calls into a Java library) are not part of this model.

## Findings

| source | as written | input that shows it | evidently intended | confidence | as-written member | corrected member |
|---|---|---|---|---|---|---|
| ioisis/fieldutils.py:82 | the Counter is incremented with the key after its suffix was appended (line 80), while line 78 reads it with the base key, so a base key's count never passes 1 | "data", prefix "a", length 0, empty set: [("", "d"), ("1", "t"), ("1", "")] | [("", "d"), ("1", "t"), ("2", "")], as tests/test_fieldutils.py:53-57 and the docstring expect | not executed | FieldutilsExamples.AsWrittenLengthZero | Fieldutils.SubfieldParser.NumberIntendedRepeatedKey |
| ioisis/iso.py:112 | `... .decode("ascii") or b"0"` falls back to a bytes key, while every other tag gives a text key | a directory entry with tag b"000" gives the key b"0" | the text key "0", as tests/test_iso.py:10 expects | not executed | Iso.GroupedTagZeroAsWritten | Iso.GroupedTagZero |
| ioisis/ccons.py:54 | the trailing comma makes `_sizeof` return a 1-tuple | 160 data bytes with the defaults give (163,) | the integer 163 | not executed | Ccons.LineSplitSizeDefaults | Ccons.LineSplitSize |

The members that model the program follow the code as written, and the
corrected definitions sit beside them:

- `Call`, `EmitAll`, `Emit` and `Parse` bump the Counter with the emitted key
  (`Number`). The corrected numbering is `NumberIntended`, used by
  `EmitIntended` and `ParseIntended`. `ParseAgrees` shows that the two parses
  have the same values and base keys, and differ only in their suffixes.
- `Con2Dict` computes `Grouped(AsWritten, …)`, keyed by `TagKeyOf`. The
  corrected key is `TagKeyIntended`, selected by `Grouped(Intended, …)`.
  `GroupedRulesAgree` shows that the two agree unless some tag is all zeros.
- `LineSplitSizeTuple` is `_sizeof` as written. The corrected size is
  `LineSplitSize`.

=== FILE: ascii.dfy ===
/** Octets and the ASCII conventions the source relies on (bytes.lower, b"%d", int(bytes)). */
module Ascii {
  import Decimal

  newtype uint8 = x: int | 0 <= x < 256

  const CR: uint8 := 13
  const LF: uint8 := 10
  const ZERO: uint8 := 48

  predicate IsDigitByte(b: uint8) { 48 <= b <= 57 }

  predicate IsDecimal(s: seq<uint8>)
  {
    forall i :: 0 <= i < |s| ==> IsDigitByte(s[i])
  }

  /** The ASCII bytes of a numeral. */
  function DigitBytes(ds: seq<nat>): (s: seq<uint8>)
    requires Decimal.IsDigits(ds)
    ensures |s| == |ds| && IsDecimal(s)
    ensures forall i :: 0 <= i < |s| ==> s[i] as int == 48 + ds[i]
  {
    if ds == [] then [] else [(48 + ds[0]) as uint8] + DigitBytes(ds[1..])
  }

  /** The digit values of ASCII decimal bytes. */
  function DigitValues(s: seq<uint8>): (ds: seq<nat>)
    requires IsDecimal(s)
    ensures |ds| == |s| && Decimal.IsDigits(ds)
    ensures forall i :: 0 <= i < |s| ==> ds[i] == s[i] as int - 48
  {
    if s == [] then [] else [(s[0] - 48) as nat] + DigitValues(s[1..])
  }

  /** bytes.lower(): only 'A'..'Z' change. */
  function LowerByte(b: uint8): (r: uint8)
    ensures 65 <= b <= 90 ==> r as int == b as int + 32
    ensures !(65 <= b <= 90) ==> r == b
  {
    if 65 <= b <= 90 then b + 32 else b
  }

  /** ASCII lowercasing of one character; other characters are kept. */
  function LowerChar(c: char): (r: char)
    ensures 'A' <= c <= 'Z' ==> r as int == c as int + 32
    ensures !('A' <= c <= 'Z') ==> r == c
  {
    if 'A' <= c <= 'Z' then (c as int + 32) as char else c
  }
}

=== FILE: ccons.dfy ===
/**
  Custom `construct` adapters: `Unnest`, which flattens listed sub-dictionaries
  into their parent on parsing and nests the parent under those names on
  building, and the size formula of `LineSplitRestreamed`.  The ASCII integer
  adapter of this file is the same as the ISO one and is modelled there.
*/
module Ccons {
  import opened Wrappers

  /**
    A container entry: a sub-dictionary, or a leaf, which stands for any value
    that `dict.update` rejects (a number, a non-empty string, a list whose items
    are not pairs).
  */
  datatype Value<K(==), L> = Leaf(leaf: L) | Dict(entries: map<K, Value<K, L>>)

  /**
    One iteration of `Unnest._decode`: an absent name leaves the dictionary
    as it is; a present one is popped and its sub-dictionary merged in,
    overriding existing keys; popping a leaf makes `update` raise.
  */
  function UnnestStep<K(==), L>(d: map<K, Value<K, L>>, name: K): (r: Result<map<K, Value<K, L>>, Error>)
    ensures name !in d ==> r == Ok(d)
    ensures name in d && d[name].Leaf? ==> r == Err(UpdateError)
    ensures name in d && d[name].Dict? ==> (
      var sub := d[name].entries;
      r.Ok? && r.value.Keys == (d.Keys - {name}) + sub.Keys &&
      (forall k :: k in sub ==> r.value[k] == sub[k]) &&
      (forall k :: k in d && k != name && k !in sub ==> r.value[k] == d[k]))
  {
    if name !in d then Ok(d)
    else match d[name]
      case Leaf(_) => Err(UpdateError)
      case Dict(sub) => Ok((d - {name}) + sub)
  }

  /** `Unnest._decode`: the names processed in order, the first rejected value ending the conversion. */
  function Unnested<K(==), L>(d: map<K, Value<K, L>>, names: seq<K>): Result<map<K, Value<K, L>>, Error>
    decreases |names|
  {
    if names == [] then Ok(d)
    else match UnnestStep(d, names[0])
      case Err(e) => Err(e)
      case Ok(d') => Unnested(d', names[1..])
  }

  /** The adapter, with the names it was built with. */
  datatype Unnest<K(==)> = Unnest(names: seq<K>)
  {
    /** `_decode`, on a copy of the parsed container (a map value here). */
    method Decode<L>(obj: map<K, Value<K, L>>) returns (r: Result<map<K, Value<K, L>>, Error>)
      ensures r == Unnested(obj, names)
    {
      var result := obj;
      var i := 0;
      while i < |names|
        invariant 0 <= i <= |names|
        invariant Unnested(obj, names) == Unnested(result, names[i..])
      {
        assert names[i..][1..] == names[i + 1..];
        var name := names[i];
        if name in result {
          var popped := result[name];
          result := result - {name};
          if popped.Leaf? {
            return Err(UpdateError);
          }
          result := result + popped.entries;
        }
        i := i + 1;
      }
      r := Ok(result);
    }

    /** `_encode`: every listed name is (re)bound to the whole original container. */
    method Encode<L>(obj: map<K, Value<K, L>>) returns (r: map<K, Value<K, L>>)
      ensures r == Nested(obj, names)
    {
      r := obj;
      var i := 0;
      while i < |names|
        invariant 0 <= i <= |names|
        invariant r == Nested(obj, names[..i])
      {
        NestedSnoc(obj, names, i);
        r := r[names[i] := Dict(obj)];
        i := i + 1;
      }
      assert names[..|names|] == names;
    }
  }

  function NameSet<K>(names: seq<K>): set<K>
  {
    set i | 0 <= i < |names| :: names[i]
  }

  /**
    The container `_encode` builds: its keys are the original ones and the
    listed names, each listed name maps to the original container, every
    other key keeps its value.
  */
  function Nested<K(==), L>(obj: map<K, Value<K, L>>, names: seq<K>): (r: map<K, Value<K, L>>)
    ensures r.Keys == obj.Keys + NameSet(names)
    ensures forall i :: 0 <= i < |names| ==> r[names[i]] == Dict(obj)
    ensures forall k :: k in obj && k !in NameSet(names) ==> r[k] == obj[k]
    decreases |names|
  {
    if names == [] then obj
    else
      var n := |names| - 1;
      assert NameSet(names) == NameSet(names[..n]) + {names[n]};
      Nested(obj, names[..n])[names[n] := Dict(obj)]
  }

  /** Nesting under one more name rebinds that name and keeps the rest. */
  lemma NestedSnoc<K, L>(obj: map<K, Value<K, L>>, names: seq<K>, i: nat)
    requires i < |names|
    ensures Nested(obj, names[..i + 1]) == Nested(obj, names[..i])[names[i] := Dict(obj)]
  {
    assert names[..i + 1][..i] == names[..i];
  }

  // ------------------------------------------------------------------
  // Properties of Unnest
  // ------------------------------------------------------------------

  /** Names absent from the container all along are ignored. */
  lemma {:induction false} UnnestedAbsent<K, L>(d: map<K, Value<K, L>>, names: seq<K>)
    requires forall i :: 0 <= i < |names| ==> names[i] !in d
    ensures Unnested(d, names) == Ok(d)
    decreases |names|
  {
    if names != [] {
      UnnestedAbsent(d, names[1..]);
    }
  }

  /** The keys of the sub-dictionaries merged while decoding (empty once decoding fails). */
  function MergedKeys<K(==), L>(d: map<K, Value<K, L>>, names: seq<K>): set<K>
    decreases |names|
  {
    if names == [] then {}
    else match UnnestStep(d, names[0])
      case Err(_) => {}
      case Ok(d') =>
        (if names[0] in d then d[names[0]].entries.Keys else {}) + MergedKeys(d', names[1..])
  }

  /** A key that is neither listed nor merged from a sub-dictionary keeps its value (or stays absent). */
  lemma {:induction false} UnnestedKeepsOthers<K, L>(d: map<K, Value<K, L>>, names: seq<K>, k: K)
    requires Unnested(d, names).Ok?
    requires k !in NameSet(names) && k !in MergedKeys(d, names)
    ensures k in Unnested(d, names).value <==> k in d
    ensures k in d ==> Unnested(d, names).value[k] == d[k]
    decreases |names|
  {
    if names != [] {
      assert NameSet(names) == {names[0]} + NameSet(names[1..]);
      var d' := UnnestStep(d, names[0]).value;
      UnnestedKeepsOthers(d', names[1..], k);
    }
  }

  /** Decoding what was encoded gives the container back, when no listed name was one of its keys. */
  lemma DecodeEncode<K, L>(obj: map<K, Value<K, L>>, names: seq<K>)
    requires forall i :: 0 <= i < |names| ==> names[i] !in obj
    ensures Unnested(Nested(obj, names), names) == Ok(obj)
  {
    var e := Nested(obj, names);
    var extra := map k | k in e.Keys - obj.Keys :: e[k];
    assert e == obj + extra;
    UnnestedNestedRest(obj, extra, names);
  }

  /**
    The invariant of that decoding: the original container plus some of the
    names not yet processed, each bound to the original container.
  */
  lemma {:induction false} UnnestedNestedRest<K, L>(obj: map<K, Value<K, L>>, extra: map<K, Value<K, L>>, rest: seq<K>)
    requires forall i :: 0 <= i < |rest| ==> rest[i] !in obj
    requires extra.Keys <= NameSet(rest)
    requires forall k :: k in extra ==> extra[k] == Dict(obj)
    ensures Unnested(obj + extra, rest) == Ok(obj)
    decreases |rest|
  {
    if rest == [] {
      assert extra == map[];
      assert obj + extra == obj;
    } else {
      var name := rest[0];
      var d := obj + extra;
      var extra' := extra - {name};
      assert NameSet(rest) == {name} + NameSet(rest[1..]);
      if name in d {
        assert (d - {name}) + obj == obj + extra';
      } else {
        assert extra' == extra;
      }
      assert UnnestStep(d, name) == Ok(obj + extra');
      UnnestedNestedRest(obj, extra', rest[1..]);
    }
  }

  // ------------------------------------------------------------------
  // LineSplitRestreamed._sizeof
  // ------------------------------------------------------------------

  /** Python's `n // d`; Dafny's Euclidean division agrees with it for a positive divisor. */
  function LineCount(n: nat, lineLen: nat): (k: nat)
    requires lineLen >= 1
    ensures (k - 1) * lineLen <= n < k * lineLen
  {
    n / lineLen + 1
  }

  /**
    The size of the line-split stream the source intends: the data plus one
    newline for every line started, a full last line starting an empty one.
  */
  function LineSplitSize(n: nat, lineLen: nat, newlineLen: nat): (r: nat)
    requires lineLen >= 1
    ensures r >= n
    ensures r == n + LineCount(n, lineLen) * newlineLen
  {
    n + (n / lineLen + 1) * newlineLen
  }

  /** `_sizeof` as written: the trailing comma wraps the size in a 1-tuple. */
  function LineSplitSizeTuple(n: nat, lineLen: nat, newlineLen: nat): (r: seq<nat>)
    requires lineLen >= 1
    ensures |r| == 1 && r[0] == LineSplitSize(n, lineLen, newlineLen)
  {
    [n + (n / lineLen + 1) * newlineLen]
  }

  /** With the default 80-byte lines and b"\n", 160 data bytes give the tuple (163,) rather than 163. */
  lemma LineSplitSizeDefaults()
    ensures LineSplitSizeTuple(160, 80, 1) == [163]
    ensures LineSplitSize(160, 80, 1) == 163
  {
  }
}

=== FILE: decimal.dfy ===
/** Base-ten numerals of natural numbers, as digit values (0 to 9), most significant first. */
module Decimal {

  function Pow10(k: nat): (r: nat)
    ensures r >= 1
  {
    if k == 0 then 1 else 10 * Pow10(k - 1)
  }

  predicate IsDigits(ds: seq<nat>)
  {
    forall i :: 0 <= i < |ds| ==> ds[i] < 10
  }

  /** The shortest numeral of n, as Python's "%d" writes it: no leading zero except for 0 itself. */
  function Digits(n: nat): (ds: seq<nat>)
    ensures 1 <= |ds| && IsDigits(ds)
    ensures ds[0] == 0 <==> n == 0
    decreases n
  {
    if n < 10 then [n] else Digits(n / 10) + [n % 10]
  }

  /** The number a digit sequence denotes (the empty sequence denotes 0). */
  function Value(ds: seq<nat>): nat
  {
    if ds == [] then 0 else Value(ds[..|ds| - 1]) * 10 + ds[|ds| - 1]
  }

  function Zeros(k: nat): (zs: seq<nat>)
    ensures |zs| == k && IsDigits(zs)
    ensures forall i :: 0 <= i < k ==> zs[i] == 0
  {
    if k == 0 then [] else [0] + Zeros(k - 1)
  }

  lemma {:induction false} ValueOfDigits(n: nat)
    ensures Value(Digits(n)) == n
    decreases n
  {
    if n >= 10 {
      ValueOfDigits(n / 10);
      var ds := Digits(n);
      assert ds[..|ds| - 1] == Digits(n / 10);
    }
  }

  /** Leading zeros do not change the value of a numeral. */
  lemma {:induction false} ValueLeadingZeros(k: nat, ds: seq<nat>)
    ensures Value(Zeros(k) + ds) == Value(ds)
    decreases |ds|
  {
    if ds == [] {
      ZerosValue(k);
      assert Zeros(k) + ds == Zeros(k);
    } else {
      var init := ds[..|ds| - 1];
      ValueLeadingZeros(k, init);
      assert (Zeros(k) + ds)[..|Zeros(k) + ds| - 1] == Zeros(k) + init;
    }
  }

  lemma {:induction false} ZerosValue(k: nat)
    ensures Value(Zeros(k)) == 0
  {
    if k > 0 {
      var zs := Zeros(k);
      assert zs[..k - 1] == Zeros(k - 1);
      ZerosValue(k - 1);
    }
  }

  /** A numeral whose leading digit is not zero is the shortest numeral of its value. */
  lemma {:induction false} DigitsOfValue(ds: seq<nat>)
    requires 1 <= |ds| && IsDigits(ds) && (ds[0] == 0 ==> |ds| == 1)
    ensures Digits(Value(ds)) == ds
    decreases |ds|
  {
    var init := ds[..|ds| - 1];
    if |ds| == 1 {
      assert init == [];
    } else {
      DigitsOfValue(init);
      ValuePositive(init);
      var v := Value(ds);
      assert v / 10 == Value(init) && v % 10 == ds[|ds| - 1];
      assert ds == init + [ds[|ds| - 1]];
    }
  }

  lemma {:induction false} ValuePositive(ds: seq<nat>)
    requires 1 <= |ds| && ds[0] != 0
    ensures Value(ds) >= 1
    decreases |ds|
  {
    if |ds| > 1 {
      ValuePositive(ds[..|ds| - 1]);
    }
  }

  /** n fits in w digits exactly when it is below 10^w. */
  lemma {:induction false} DigitsFit(n: nat, w: nat)
    requires w >= 1
    ensures |Digits(n)| <= w <==> n < Pow10(w)
    decreases n
  {
    if n >= 10 {
      if w == 1 {
        assert Pow10(1) == 10;
      } else {
        DigitsFit(n / 10, w - 1);
        assert n / 10 < Pow10(w - 1) <==> n < 10 * Pow10(w - 1);
      }
    } else {
      PowAtLeastTen(w);
    }
  }

  lemma {:induction false} PowAtLeastTen(w: nat)
    requires w >= 1
    ensures Pow10(w) >= 10
  {
    if w > 1 {
      PowAtLeastTen(w - 1);
    }
  }
}

=== FILE: fieldutils.dfy ===
/**
  The subfield tokenizer of ioisis: a `SubfieldParser` splits one field (text or
  bytes) into ordered (key, value) pairs.

  The compiled pattern `(?:^|P(.{L}))(.*?)(?=$|P.{L})` is modelled as a boundary
  scan: position i is a boundary when the lookahead `(?=$|P.{L})` succeeds there,
  that is, at the end of the field or where the prefix P starts with at least L
  units after it.  The leading segment runs from 0 to the first boundary; every
  later segment starts at a boundary b < |s|, takes the L units after the marker
  as its key and runs up to the next boundary at or after the key.

  The model is generic over the unit type T; `Text` and `Bytes` are its two
  instances (str and bytes fields).
*/
module Fieldutils {
  import Decimal
  import opened Ascii

  /** One (key, value) pair, as the parser yields it. */
  datatype Subfield<T> = Subfield(key: seq<T>, value: seq<T>)

  /**
    What the parser needs from the representation of a field: how a key is
    lowercased (`key.lower()`), the ten digit units `%d` writes, and the
    newline unit (which Python's `$` treats specially).
  */
  datatype Alphabet<!T> = Alphabet(lowerKey: seq<T> -> seq<T>, digits: seq<T>, newline: T)
  {
    predicate Valid() { |digits| == 10 }

    /** `percent_d % n`: the shortest decimal numeral of n in this representation. */
    function Format(n: nat): (r: seq<T>)
      requires Valid()
      ensures |r| == |Decimal.Digits(n)|
      ensures forall i :: 0 <= i < |r| ==> r[i] == digits[Decimal.Digits(n)[i]]
    {
      FormatDigits(Decimal.Digits(n))
    }

    function FormatDigits(ds: seq<nat>): (r: seq<T>)
      requires Valid() && Decimal.IsDigits(ds)
      ensures |r| == |ds| && forall i :: 0 <= i < |r| ==> r[i] == digits[ds[i]]
    {
      if ds == [] then [] else [digits[ds[0]]] + FormatDigits(ds[1..])
    }
  }

  function LowerText(s: string): (r: string)
    ensures |r| == |s| && forall i :: 0 <= i < |s| ==> r[i] == LowerChar(s[i])
  {
    if s == [] then [] else [LowerChar(s[0])] + LowerText(s[1..])
  }

  function LowerBytes(s: seq<uint8>): (r: seq<uint8>)
    ensures |r| == |s| && forall i :: 0 <= i < |s| ==> r[i] == LowerByte(s[i])
  {
    if s == [] then [] else [LowerByte(s[0])] + LowerBytes(s[1..])
  }

  /** A str field: characters, ASCII-only lowercasing. */
  const Text: Alphabet<char> := Alphabet(LowerText, "0123456789", '\n')

  /** A bytes field: octets, `bytes.lower()`. */
  const Bytes: Alphabet<uint8> := Alphabet(LowerBytes, [48, 49, 50, 51, 52, 53, 54, 55, 56, 57], LF)

  predicate EndsInNewline<T(==)>(a: Alphabet<T>, s: seq<T>)
  {
    |s| > 0 && s[|s| - 1] == a.newline
  }

  function Keys<T>(ps: seq<Subfield<T>>): (ks: seq<seq<T>>)
    ensures |ks| == |ps| && forall i :: 0 <= i < |ps| ==> ks[i] == ps[i].key
  {
    if ps == [] then [] else [ps[0].key] + Keys(ps[1..])
  }

  function Values<T>(ps: seq<Subfield<T>>): (vs: seq<seq<T>>)
    ensures |vs| == |ps| && forall i :: 0 <= i < |ps| ==> vs[i] == ps[i].value
  {
    if ps == [] then [] else [ps[0].value] + Values(ps[1..])
  }

  /** Pairs are determined by their keys and their values. */
  lemma PairsFromKeysAndValues<T>(ps: seq<Subfield<T>>, qs: seq<Subfield<T>>)
    requires Keys(ps) == Keys(qs) && Values(ps) == Values(qs)
    ensures ps == qs
  {
    assert |ps| == |Keys(ps)| == |qs|;
    forall i | 0 <= i < |ps|
      ensures ps[i] == qs[i]
    {
      assert Keys(ps)[i] == Keys(qs)[i] && Values(ps)[i] == Values(qs)[i];
    }
  }

  /** n copies of one key. */
  function Repeat<T>(k: seq<T>, n: nat): (r: seq<seq<T>>)
    ensures |r| == n && forall i :: 0 <= i < n ==> r[i] == k
  {
    if n == 0 then [] else [k] + Repeat(k, n - 1)
  }

  lemma {:induction false} RepeatCount<T>(k: seq<T>, n: nat)
    ensures multiset(Repeat(k, n))[k] == n
  {
    if n > 0 {
      RepeatCount(k, n - 1);
    }
  }

  /**
    The configuration `SubfieldParser.__init__` stores, with its defaults.
    `first` is None or a key; both None and the empty key are falsy in the
    source, so the empty sequence stands for both.
  */
  datatype SubfieldParser<T(==)> = SubfieldParser(
    prefix: seq<T>,
    length: nat := 1,
    lower: bool := false,
    first: seq<T> := [],
    empty: bool := false,
    number: bool := true,
    zero: bool := false)
  {
    /** An empty prefix gives a degenerate pattern; the scan needs |P| >= 1 to advance. */
    predicate Valid() { |prefix| >= 1 }

    // ------------------------------------------------------------------
    // Segmentation (the pattern and `findall`)
    // ------------------------------------------------------------------

    /** The lookahead `(?=$|P.{L})` succeeds at position i. */
    predicate IsBoundary(s: seq<T>, i: nat)
      requires i <= |s|
    {
      i == |s| || (i + |prefix| + length <= |s| && s[i..i + |prefix|] == prefix)
    }

    /** Where the lazy `(.*?)` starting at j stops: the least boundary at or after j. */
    function NextBoundary(s: seq<T>, j: nat): (i: nat)
      requires j <= |s|
      ensures j <= i <= |s| && IsBoundary(s, i)
      ensures forall k :: j <= k < i ==> !IsBoundary(s, k)
      decreases |s| - j
    {
      if IsBoundary(s, j) then j else NextBoundary(s, j + 1)
    }

    /** Where the scan resumes after the marker at the boundary b: the value ends at the next boundary. */
    function After(s: seq<T>, b: nat): (e: nat)
      requires b < |s| && IsBoundary(s, b)
      ensures b + |prefix| + length <= e <= |s| && IsBoundary(s, e)
    {
      NextBoundary(s, b + |prefix| + length)
    }

    /** The match of `P(.{L})(.*?)` at the boundary b: the L units after P, then the value up to `After`. */
    function PairAt(s: seq<T>, b: nat): Subfield<T>
      requires b < |s| && IsBoundary(s, b)
    {
      var k := b + |prefix| + length;
      Subfield(s[b + |prefix|..k], s[k..After(s, b)])
    }

    /** The marker positions the scan uses, starting from the boundary b. */
    ghost function SplitsFrom(s: seq<T>, b: nat): (r: seq<nat>)
      requires Valid() && b <= |s| && IsBoundary(s, b)
      ensures b == |s| ==> r == []
      ensures b < |s| ==> |r| >= 1 && r[0] == b
      decreases |s| - b
    {
      if b == |s| then [] else [b] + SplitsFrom(s, After(s, b))
    }

    /** The matches of the `P(.{L})` alternative from the boundary b on. */
    function PairsFrom(s: seq<T>, b: nat): (r: seq<Subfield<T>>)
      requires Valid() && b <= |s| && IsBoundary(s, b)
      decreases |s| - b
    {
      if b == |s| then [] else [PairAt(s, b)] + PairsFrom(s, After(s, b))
    }

    /** `findall` on the field: the leading keyless segment, then one pair per marker used. */
    function Segments(s: seq<T>): (r: seq<Subfield<T>>)
      requires Valid()
      ensures |r| >= 1 && r[0].key == []
    {
      var e := NextBoundary(s, 0);
      [Subfield([], s[..e])] + PairsFrom(s, e)
    }

    /** The markers that start the non-leading segments of s. */
    ghost function Splits(s: seq<T>): seq<nat>
      requires Valid()
    {
      SplitsFrom(s, NextBoundary(s, 0))
    }

    /** Where the value of the i-th non-leading segment ends: the next marker used, or the end. */
    function ValueEnd(s: seq<T>, sp: seq<nat>, i: nat): nat
      requires i < |sp|
    {
      if i + 1 < |sp| then sp[i + 1] else |s|
    }

    /**
      The pair ps[i] is the i-th marker's segment: its key is the L units right
      after the marker at sp[i], its value runs to the next marker used (or the
      end), and no position inside the value is a boundary.
    */
    ghost predicate SegmentAt(s: seq<T>, sp: seq<nat>, ps: seq<Subfield<T>>, i: nat)
      requires i < |sp| && i < |ps|
    {
      var m := sp[i] + |prefix| + length;
      var e := ValueEnd(s, sp, i);
      m <= e <= |s| &&
      s[sp[i]..sp[i] + |prefix|] == prefix &&
      ps[i].key == s[sp[i] + |prefix|..m] && ps[i].value == s[m..e] &&
      forall k :: m <= k < e ==> !IsBoundary(s, k)
    }

    lemma {:induction false} PairsFromSpans(s: seq<T>, b: nat)
      requires Valid() && b <= |s| && IsBoundary(s, b)
      ensures |PairsFrom(s, b)| == |SplitsFrom(s, b)|
      ensures forall i :: 0 <= i < |SplitsFrom(s, b)| ==> SegmentAt(s, SplitsFrom(s, b), PairsFrom(s, b), i)
      decreases |s| - b
    {
      if b < |s| {
        var k, e := PairsFromUnfold(s, b);
        PairAtSlices(s, b);
        PairsFromSpans(s, e);
        SegmentsCons(s, b, k, e);
      }
    }

    /** One step of the scan from the boundary b: the key's end k and the value's end e. */
    lemma PairsFromUnfold(s: seq<T>, b: nat) returns (k: nat, e: nat)
      requires Valid() && b < |s| && IsBoundary(s, b)
      ensures k == b + |prefix| + length && e == After(s, b)
      ensures k <= e <= |s| && IsBoundary(s, e) && s[b..b + |prefix|] == prefix
      ensures forall j :: k <= j < e ==> !IsBoundary(s, j)
      ensures PairsFrom(s, b) == [PairAt(s, b)] + PairsFrom(s, e)
      ensures SplitsFrom(s, b) == [b] + SplitsFrom(s, e)
    {
      k := b + |prefix| + length;
      e := After(s, b);
      PairsFromDef(s, b);
      SplitsFromDef(s, b);
    }

    /** The pair at b is read off the field: the key after the marker, the value up to `After`. */
    lemma PairAtSlices(s: seq<T>, b: nat)
      requires b < |s| && IsBoundary(s, b)
      ensures PairAt(s, b).key == s[b + |prefix|..b + |prefix| + length]
      ensures PairAt(s, b).value == s[b + |prefix| + length..After(s, b)]
    {
    }

    lemma PairsFromDef(s: seq<T>, b: nat)
      requires Valid() && b < |s| && IsBoundary(s, b)
      ensures PairsFrom(s, b) == [PairAt(s, b)] + PairsFrom(s, After(s, b))
    {
    }

    lemma SplitsFromDef(s: seq<T>, b: nat)
      requires Valid() && b < |s| && IsBoundary(s, b)
      ensures SplitsFrom(s, b) == [b] + SplitsFrom(s, After(s, b))
    {
    }

    /** The segments from b are the first one followed by those from e. */
    lemma SegmentsCons(s: seq<T>, b: nat, k: nat, e: nat)
      requires Valid() && b < |s| && IsBoundary(s, b)
      requires k == b + |prefix| + length && k <= e <= |s| && IsBoundary(s, e) && s[b..b + |prefix|] == prefix
      requires forall j :: k <= j < e ==> !IsBoundary(s, j)
      requires PairAt(s, b).key == s[b + |prefix|..k] && PairAt(s, b).value == s[k..e]
      requires PairsFrom(s, b) == [PairAt(s, b)] + PairsFrom(s, e)
      requires SplitsFrom(s, b) == [b] + SplitsFrom(s, e)
      requires |PairsFrom(s, e)| == |SplitsFrom(s, e)|
      requires forall i :: 0 <= i < |SplitsFrom(s, e)| ==> SegmentAt(s, SplitsFrom(s, e), PairsFrom(s, e), i)
      ensures |PairsFrom(s, b)| == |SplitsFrom(s, b)|
      ensures forall i :: 0 <= i < |SplitsFrom(s, b)| ==> SegmentAt(s, SplitsFrom(s, b), PairsFrom(s, b), i)
    {
      var sp', ps' := SplitsFrom(s, e), PairsFrom(s, e);
      var sp, ps := SplitsFrom(s, b), PairsFrom(s, b);
      SegmentAtHead(s, b, e, PairAt(s, b), sp', ps');
      forall i | 1 <= i < |sp|
        ensures SegmentAt(s, sp, ps, i)
      {
        SegmentAtCons(s, b, ps[0], sp', ps', i);
      }
    }

    /** The marker at b, followed by the markers from the boundary e, starts the segment running to e. */
    lemma SegmentAtHead(s: seq<T>, b: nat, e: nat, p: Subfield<T>, sp: seq<nat>, ps: seq<Subfield<T>>)
      requires b + |prefix| + length <= e <= |s| && s[b..b + |prefix|] == prefix
      requires p.key == s[b + |prefix|..b + |prefix| + length] && p.value == s[b + |prefix| + length..e]
      requires |sp| > 0 ==> sp[0] == e
      requires |sp| == 0 ==> e == |s|
      requires forall k :: b + |prefix| + length <= k < e ==> !IsBoundary(s, k)
      ensures SegmentAt(s, [b] + sp, [p] + ps, 0)
    {
      assert ValueEnd(s, [b] + sp, 0) == e;
    }

    /** Putting one marker and its pair in front shifts the segments by one. */
    lemma SegmentAtCons(s: seq<T>, b: nat, p: Subfield<T>, sp: seq<nat>, ps: seq<Subfield<T>>, i: nat)
      requires 1 <= i <= |sp| && i <= |ps|
      requires SegmentAt(s, sp, ps, i - 1)
      ensures SegmentAt(s, [b] + sp, [p] + ps, i)
    {
      assert ([b] + sp)[i] == sp[i - 1];
      assert ValueEnd(s, [b] + sp, i) == ValueEnd(s, sp, i - 1);
      assert ([p] + ps)[i] == ps[i - 1];
    }

    /**
      The segmentation of a field: one leading segment plus one per marker used,
      in left-to-right order; the leading value runs to the first marker used and
      contains no boundary; each later pair is that marker's key and value.
    */
    lemma SegmentsSpans(s: seq<T>)
      requires Valid()
      ensures |Segments(s)| == |Splits(s)| + 1
      ensures Segments(s)[0] == Subfield([], s[..if |Splits(s)| > 0 then Splits(s)[0] else |s|])
      ensures forall k :: 0 <= k < (if |Splits(s)| > 0 then Splits(s)[0] else |s|) ==> !IsBoundary(s, k)
      ensures forall i :: 0 <= i < |Splits(s)| ==> SegmentAt(s, Splits(s), Segments(s)[1..], i)
    {
      var e := NextBoundary(s, 0);
      PairsFromSpans(s, e);
      assert Segments(s)[1..] == PairsFrom(s, e);
    }

    // ------------------------------------------------------------------
    // Resynthesis (the expression in the test module)
    // ------------------------------------------------------------------

    /** `k[:L]`: a key cut to at most L units. */
    function Cut(key: seq<T>): (r: seq<T>)
      ensures |r| <= length && r <= key
      ensures |key| <= length ==> r == key
    {
      if |key| <= length then key else key[..length]
    }

    /** `"".join(P + k[:L] + v for k, v in pairs)` */
    function Rejoin(pairs: seq<Subfield<T>>): seq<T>
    {
      if pairs == [] then [] else prefix + Cut(pairs[0].key) + pairs[0].value + Rejoin(pairs[1..])
    }

    /** The leading value followed by every later pair rejoined. */
    function Resynth(pairs: seq<Subfield<T>>): seq<T>
      requires |pairs| >= 1
    {
      pairs[0].value + Rejoin(pairs[1..])
    }

    lemma {:induction false} PairsFromRejoin(s: seq<T>, b: nat)
      requires Valid() && b <= |s| && IsBoundary(s, b)
      ensures Rejoin(PairsFrom(s, b)) == s[b..]
      decreases |s| - b
    {
      if b < |s| {
        var k, e := PairsFromUnfold(s, b);
        PairsFromRejoin(s, e);
        RejoinStep(s, b, PairsFrom(s, e));
      }
    }

    lemma RejoinStep(s: seq<T>, b: nat, rest: seq<Subfield<T>>)
      requires b < |s| && IsBoundary(s, b) && Rejoin(rest) == s[After(s, b)..]
      ensures Rejoin([PairAt(s, b)] + rest) == s[b..]
    {
      PairAtSlices(s, b);
      RejoinPair(s, b, b + |prefix| + length, After(s, b), PairAt(s, b), rest);
    }

    lemma RejoinPair(s: seq<T>, b: nat, k: nat, e: nat, p: Subfield<T>, rest: seq<Subfield<T>>)
      requires b + |prefix| + length == k <= e <= |s| && p.key == s[b + |prefix|..k] && p.value == s[k..e]
      requires s[b..b + |prefix|] == prefix && Rejoin(rest) == s[e..]
      ensures Rejoin([p] + rest) == s[b..]
    {
      calc {
        Rejoin([p] + rest);
      == { RejoinCons(p, rest); }
        prefix + Cut(p.key) + p.value + Rejoin(rest);
      == { assert Cut(p.key) == p.key; }
        s[b..b + |prefix|] + s[b + |prefix|..k] + s[k..e] + s[e..];
      == { SliceSplit(s, b, b + |prefix|, k, e); }
        s[b..];
      }
    }

    lemma RejoinCons(p: Subfield<T>, rest: seq<Subfield<T>>)
      ensures Rejoin([p] + rest) == prefix + Cut(p.key) + p.value + Rejoin(rest)
    {
      assert ([p] + rest)[1..] == rest;
    }

    lemma SliceSplit(s: seq<T>, i: nat, j: nat, k: nat, l: nat)
      requires i <= j <= k <= l <= |s|
      ensures s[i..j] + s[j..k] + s[k..l] + s[l..] == s[i..]
    {
    }

    /** Segmentation loses nothing: resynthesising the raw segments gives the field back. */
    lemma SegmentsResynth(s: seq<T>)
      requires Valid()
      ensures Resynth(Segments(s)) == s
    {
      var e := NextBoundary(s, 0);
      PairsFromRejoin(s, e);
      assert Segments(s)[1..] == PairsFrom(s, e);
      assert s == s[..e] + s[e..];
    }

    /** Rejoining depends only on the values and on each key cut to L units. */
    lemma {:induction false} RejoinCut(ps: seq<Subfield<T>>, qs: seq<Subfield<T>>)
      requires |ps| == |qs|
      requires forall i :: 0 <= i < |ps| ==> ps[i].value == qs[i].value && Cut(ps[i].key) == Cut(qs[i].key)
      ensures Rejoin(ps) == Rejoin(qs)
    {
      if ps != [] {
        RejoinCut(ps[1..], qs[1..]);
      }
    }

    // ------------------------------------------------------------------
    // The loop of `__call__`: filter, first key, lowercasing, numbering
    // ------------------------------------------------------------------

    /** `if self.empty or value` */
    predicate Keeps(value: seq<T>)
    {
      empty || value != []
    }

    /** The key before numbering: `first` for an empty key when `first` is set, then lowercased. */
    function BaseKey(a: Alphabet<T>, key: seq<T>): seq<T>
    {
      var k := if first != [] && key == [] then first else key;
      if lower then a.lowerKey(k) else k
    }

    /** The suffix for a key whose counter reads `count`: `%d` when `zero` is set or the count is not zero. */
    function Suffix(a: Alphabet<T>, count: nat): (r: seq<T>)
      requires a.Valid()
      ensures r == [] <==> !zero && count == 0
    {
      if zero || count != 0 then a.Format(count) else []
    }

    /**
      The emitted key: with `number`, the base key plus the suffix for what the
      Counter holds for the BASE key.
    */
    function NumberedKey(a: Alphabet<T>, base: seq<T>, counter: multiset<seq<T>>): (r: seq<T>)
      requires a.Valid()
      ensures base <= r
      ensures !number ==> r == base
    {
      if number then base + Suffix(a, counter[base]) else base
    }

    /**
      The loop over the raw pairs as a fold, as written.  `counter` is the
      Counter `key_count`: the suffix is looked up with the BASE key, and after
      a pair is yielded the Counter is incremented for the EMITTED key, the one
      that may already carry a suffix.
    */
    function Emit(a: Alphabet<T>, raw: seq<Subfield<T>>, counter: multiset<seq<T>>): seq<Subfield<T>>
      requires a.Valid()
      decreases |raw|
    {
      if raw == [] then []
      else if Keeps(raw[0].value) then
        var key := NumberedKey(a, BaseKey(a, raw[0].key), counter);
        [Subfield(key, raw[0].value)] + Emit(a, raw[1..], counter + multiset{key})
      else
        Emit(a, raw[1..], counter)
    }

    /** What a call of the parser yields for a field, as a list. */
    function Parse(a: Alphabet<T>, field: seq<T>): seq<Subfield<T>>
      requires Valid() && a.Valid() && !EndsInNewline(a, field)
    {
      Emit(a, Segments(field), multiset{})
    }

    /** `SubfieldParser.__call__`, with the generator collected into a list. */
    method Call(a: Alphabet<T>, field: seq<T>) returns (pairs: seq<Subfield<T>>)
      requires Valid() && a.Valid() && !EndsInNewline(a, field)
      ensures pairs == Parse(a, field)
    {
      pairs := EmitAll(a, Segments(field));
    }

    /** The loop of `__call__` over the matches: skipping, defaulting, lowering and numbering keys. */
    method EmitAll(a: Alphabet<T>, raw: seq<Subfield<T>>) returns (pairs: seq<Subfield<T>>)
      requires a.Valid()
      ensures pairs == Emit(a, raw, multiset{})
    {
      var keyCount: multiset<seq<T>> := multiset{};
      pairs := [];
      var i := 0;
      while i < |raw|
        invariant 0 <= i <= |raw|
        invariant pairs + Emit(a, raw[i..], keyCount) == Emit(a, raw, multiset{})
      {
        var key, value := raw[i].key, raw[i].value;
        if empty || value != [] {
          if first != [] && key == [] {
            key := first;
          }
          if lower {
            key := a.lowerKey(key);
          }
          var base := key;
          if number {
            var suffixInt := keyCount[key];
            if zero || suffixInt != 0 {
              key := key + a.Format(suffixInt);
            }
          }
          CallYields(a, raw, i, keyCount, pairs, base, key);
          pairs := pairs + [Subfield(key, value)];
          keyCount := keyCount + multiset{key};
        } else {
          CallSkips(a, raw, i, keyCount, pairs);
        }
        i := i + 1;
      }
      assert raw[i..] == [];
    }

    /** A retained pair: the loop's base key and suffixed key are the fold's, and the invariant moves on. */
    lemma CallYields(a: Alphabet<T>, raw: seq<Subfield<T>>, i: nat, counter: multiset<seq<T>>,
                     pairs: seq<Subfield<T>>, base: seq<T>, key: seq<T>)
      requires a.Valid() && i < |raw| && Keeps(raw[i].value)
      requires pairs + Emit(a, raw[i..], counter) == Emit(a, raw, multiset{})
      requires base == (if lower then a.lowerKey(if first != [] && raw[i].key == [] then first else raw[i].key)
                        else if first != [] && raw[i].key == [] then first else raw[i].key)
      requires key == (if number && (zero || counter[base] != 0) then base + a.Format(counter[base]) else base)
      ensures (pairs + [Subfield(key, raw[i].value)]) + Emit(a, raw[i + 1..], counter + multiset{key})
        == Emit(a, raw, multiset{})
    {
      CallKey(a, raw[i].key, counter, base, key);
      EmitStep(a, raw, i, counter);
      AppendAssoc(pairs, [Subfield(key, raw[i].value)], Emit(a, raw[i + 1..], counter + multiset{key}));
    }

    /** The key the loop of `__call__` computes is the one `Emit` uses. */
    lemma CallKey(a: Alphabet<T>, raw: seq<T>, counter: multiset<seq<T>>, base: seq<T>, key: seq<T>)
      requires a.Valid()
      requires base == (if lower then a.lowerKey(if first != [] && raw == [] then first else raw)
                        else if first != [] && raw == [] then first else raw)
      requires key == (if number && (zero || counter[base] != 0) then base + a.Format(counter[base]) else base)
      ensures base == BaseKey(a, raw) && key == NumberedKey(a, base, counter)
    {
      if number && !(zero || counter[base] != 0) {
        assert Suffix(a, counter[base]) == [];
        assert base + [] == base;
      }
    }

    lemma AppendAssoc(x: seq<Subfield<T>>, y: seq<Subfield<T>>, z: seq<Subfield<T>>)
      ensures (x + y) + z == x + (y + z)
    {
    }

    /** A dropped pair leaves the output and the Counter as they are. */
    lemma CallSkips(a: Alphabet<T>, raw: seq<Subfield<T>>, i: nat, counter: multiset<seq<T>>, pairs: seq<Subfield<T>>)
      requires a.Valid() && i < |raw| && !Keeps(raw[i].value)
      requires pairs + Emit(a, raw[i..], counter) == Emit(a, raw, multiset{})
      ensures pairs + Emit(a, raw[i + 1..], counter) == Emit(a, raw, multiset{})
    {
      EmitStep(a, raw, i, counter);
    }

    /** One turn of the loop of `Call`. */
    lemma EmitStep(a: Alphabet<T>, raw: seq<Subfield<T>>, i: nat, counter: multiset<seq<T>>)
      requires a.Valid() && i < |raw|
      ensures Emit(a, raw[i..], counter) ==
        if Keeps(raw[i].value) then
          var key := NumberedKey(a, BaseKey(a, raw[i].key), counter);
          [Subfield(key, raw[i].value)] + Emit(a, raw[i + 1..], counter + multiset{key})
        else Emit(a, raw[i + 1..], counter)
    {
      assert raw[i..][0] == raw[i] && raw[i..][1..] == raw[i + 1..];
    }

    // ------------------------------------------------------------------
    // The same loop, stage by stage
    // ------------------------------------------------------------------

    /**
      The raw pairs the loop keeps, in order, never more than there are;
      `RetainedDropsEmpty` states which values are kept and in what order.
    */
    function Retained(raw: seq<Subfield<T>>): (r: seq<Subfield<T>>)
      ensures empty ==> r == raw
      ensures |r| <= |raw|
      ensures forall i :: 0 <= i < |r| ==> r[i] in raw && Keeps(r[i].value)
      ensures forall i :: 0 <= i < |raw| && Keeps(raw[i].value) ==> raw[i] in r
    {
      if raw == [] then []
      else if Keeps(raw[0].value) then [raw[0]] + Retained(raw[1..])
      else Retained(raw[1..])
    }

    function BaseKeys(a: Alphabet<T>, keys: seq<seq<T>>): (r: seq<seq<T>>)
      ensures |r| == |keys| && forall i :: 0 <= i < |keys| ==> r[i] == BaseKey(a, keys[i])
    {
      if keys == [] then [] else [BaseKey(a, keys[0])] + BaseKeys(a, keys[1..])
    }

    /** Numbering as the source does it: the Counter is read with the base key and incremented with the emitted key. */
    function Number(a: Alphabet<T>, bases: seq<seq<T>>, counter: multiset<seq<T>>): seq<seq<T>>
      requires a.Valid()
    {
      if bases == [] then []
      else
        var k := NumberedKey(a, bases[0], counter);
        [k] + Number(a, bases[1..], counter + multiset{k})
    }

    /**
      The suffix of each emitted key is what the Counter held for its base key:
      the number of EARLIER EMITTED keys equal to that base key.
    */
    lemma NumberCounts(a: Alphabet<T>, bases: seq<seq<T>>, counter: multiset<seq<T>>)
      requires a.Valid()
      ensures |Number(a, bases, counter)| == |bases|
      ensures forall i :: 0 <= i < |bases| ==>
        Number(a, bases, counter)[i] == NumberedKey(a, bases[i], counter + multiset(Number(a, bases, counter)[..i]))
    {
      NumberLength(a, bases, counter);
      forall i | 0 <= i < |bases|
        ensures Number(a, bases, counter)[i] == NumberedKey(a, bases[i], counter + multiset(Number(a, bases, counter)[..i]))
      {
        NumberAt(a, bases, counter, i);
      }
    }

    lemma {:induction false} NumberLength(a: Alphabet<T>, bases: seq<seq<T>>, counter: multiset<seq<T>>)
      requires a.Valid()
      ensures |Number(a, bases, counter)| == |bases|
      decreases |bases|
    {
      if bases != [] {
        NumberLength(a, bases[1..], counter + multiset{NumberedKey(a, bases[0], counter)});
      }
    }

    lemma {:induction false} NumberAt(a: Alphabet<T>, bases: seq<seq<T>>, counter: multiset<seq<T>>, i: nat)
      requires a.Valid() && i < |bases|
      ensures |Number(a, bases, counter)| == |bases|
      ensures Number(a, bases, counter)[i] == NumberedKey(a, bases[i], counter + multiset(Number(a, bases, counter)[..i]))
      decreases i
    {
      NumberLength(a, bases, counter);
      if i > 0 {
        var out := Number(a, bases, counter);
        var k := NumberedKey(a, bases[0], counter);
        var rest := Number(a, bases[1..], counter + multiset{k});
        assert out == [k] + rest;
        NumberAt(a, bases[1..], counter + multiset{k}, i - 1);
        CountShift(counter, k, out, rest, i);
        assert bases[1..][i - 1] == bases[i];
      } else {
        assert counter + multiset(Number(a, bases, counter)[..0]) == counter;
      }
    }

    /** The counter after the first emitted key, plus the keys after it, is the counter plus all of them. */
    lemma CountShift(counter: multiset<seq<T>>, k: seq<T>, out: seq<seq<T>>, rest: seq<seq<T>>, i: nat)
      requires out == [k] + rest && 1 <= i <= |out|
      ensures counter + multiset{k} + multiset(rest[..i - 1]) == counter + multiset(out[..i])
    {
      assert out[..i] == [k] + rest[..i - 1];
    }

    /**
      Filtering happens before numbering and a dropped pair does not touch the
      Counter: the loop yields the retained values, and keys that are the
      retained keys, given the first key, lowercased and numbered by `Number`.
    */
    lemma {:induction false} EmitStages(a: Alphabet<T>, raw: seq<Subfield<T>>, counter: multiset<seq<T>>)
      requires a.Valid()
      ensures Values(Emit(a, raw, counter)) == Values(Retained(raw))
      ensures Keys(Emit(a, raw, counter)) == Number(a, BaseKeys(a, Keys(Retained(raw))), counter)
      decreases |raw|
    {
      if raw != [] {
        if Keeps(raw[0].value) {
          var key := NumberedKey(a, BaseKey(a, raw[0].key), counter);
          EmitStages(a, raw[1..], counter + multiset{key});
          var r := Retained(raw);
          assert r[1..] == Retained(raw[1..]);
          assert BaseKeys(a, Keys(r))[1..] == BaseKeys(a, Keys(r[1..]));
        } else {
          EmitStages(a, raw[1..], counter);
        }
      }
    }

    /** Without `number`, keys are left as they are. */
    lemma {:induction false} NumberOff(a: Alphabet<T>, bases: seq<seq<T>>, counter: multiset<seq<T>>)
      requires a.Valid() && !number
      ensures Number(a, bases, counter) == bases
      decreases |bases|
    {
      if bases != [] {
        NumberOff(a, bases[1..], counter + multiset{bases[0]});
      }
    }

    // ------------------------------------------------------------------
    // The numbering the docstring and the tests describe
    // ------------------------------------------------------------------

    /**
      Numbering keyed by the base key: the suffix counts the earlier occurrences
      of the same base key, so a key seen n times gets "" (or "0"), "1", ...,
      "n-1".  This is what the docstring and the test tables describe; the source
      increments the Counter with the suffixed key instead (see `Number`).
    */
    function NumberIntended(a: Alphabet<T>, bases: seq<seq<T>>, counter: multiset<seq<T>>): seq<seq<T>>
      requires a.Valid()
    {
      if bases == [] then []
      else [NumberedKey(a, bases[0], counter)] + NumberIntended(a, bases[1..], counter + multiset{bases[0]})
    }

    /** Without `number`, keys are left as they are. */
    lemma {:induction false} NumberIntendedOff(a: Alphabet<T>, bases: seq<seq<T>>, counter: multiset<seq<T>>)
      requires a.Valid() && !number
      ensures NumberIntended(a, bases, counter) == bases
      decreases |bases|
    {
      if bases != [] {
        NumberIntendedOff(a, bases[1..], counter + multiset{bases[0]});
      }
    }

    lemma NumberIntendedCounts(a: Alphabet<T>, bases: seq<seq<T>>, counter: multiset<seq<T>>)
      requires a.Valid()
      ensures |NumberIntended(a, bases, counter)| == |bases|
      ensures forall i :: 0 <= i < |bases| ==>
        NumberIntended(a, bases, counter)[i] == NumberedKey(a, bases[i], counter + multiset(bases[..i]))
    {
      NumberIntendedLength(a, bases, counter);
      forall i | 0 <= i < |bases|
        ensures NumberIntended(a, bases, counter)[i] == NumberedKey(a, bases[i], counter + multiset(bases[..i]))
      {
        NumberIntendedAt(a, bases, counter, i);
      }
    }

    lemma {:induction false} NumberIntendedLength(a: Alphabet<T>, bases: seq<seq<T>>, counter: multiset<seq<T>>)
      requires a.Valid()
      ensures |NumberIntended(a, bases, counter)| == |bases|
      decreases |bases|
    {
      if bases != [] {
        NumberIntendedLength(a, bases[1..], counter + multiset{bases[0]});
      }
    }

    lemma {:induction false} NumberIntendedAt(a: Alphabet<T>, bases: seq<seq<T>>, counter: multiset<seq<T>>, i: nat)
      requires a.Valid() && i < |bases|
      ensures |NumberIntended(a, bases, counter)| == |bases|
      ensures NumberIntended(a, bases, counter)[i] == NumberedKey(a, bases[i], counter + multiset(bases[..i]))
      decreases i
    {
      NumberIntendedLength(a, bases, counter);
      if i > 0 {
        var k, tail := bases[0], bases[1..];
        assert bases == [k] + tail;
        var rest := NumberIntended(a, tail, counter + multiset{k});
        assert NumberIntended(a, bases, counter) == [NumberedKey(a, k, counter)] + rest;
        NumberIntendedAt(a, tail, counter + multiset{k}, i - 1);
        CountShift(counter, k, bases, tail, i);
        assert tail[i - 1] == bases[i];
      } else {
        assert counter + multiset(bases[..0]) == counter;
      }
    }

    /**
      What the source does with one base key repeated: without `zero` the first
      occurrence is bare and EVERY later one gets "1"; with `zero` every
      occurrence gets "0".  The counter is read with the base key, which is
      never incremented once a suffix is added.
    */
    lemma NumberRepeatedKey(a: Alphabet<T>, k: seq<T>, n: nat)
      requires a.Valid() && number
      ensures !zero ==> Number(a, Repeat(k, n + 1), multiset{}) == [k] + Repeat(k + a.Format(1), n)
      ensures zero ==> Number(a, Repeat(k, n), multiset{}) == Repeat(k + a.Format(0), n)
    {
      if !zero {
        assert Repeat(k, n + 1) == [k] + Repeat(k, n);
        assert NumberedKey(a, k, multiset{}) == k;
        assert multiset{} + multiset{k} == multiset{k};
        NumberRepeatedSuffixed(a, k, 1, n, multiset{k});
      } else {
        NumberRepeatedSuffixed(a, k, 0, n, multiset{});
      }
    }

    lemma {:induction false} NumberRepeatedSuffixed(a: Alphabet<T>, k: seq<T>, c: nat, n: nat, counter: multiset<seq<T>>)
      requires a.Valid() && number && counter[k] == c && (zero || c != 0)
      ensures Number(a, Repeat(k, n), counter) == Repeat(k + a.Format(c), n)
      decreases n
    {
      if n > 0 {
        var key := k + a.Format(c);
        assert key != k by { assert |key| > |k|; }
        assert NumberedKey(a, k, counter) == key;
        var next := counter + multiset{key};
        assert next[k] == c;
        assert Repeat(k, n) == [k] + Repeat(k, n - 1);
        assert Number(a, Repeat(k, n), counter) == [key] + Number(a, Repeat(k, n - 1), next);
        NumberRepeatedSuffixed(a, k, c, n - 1, next);
      }
    }

    /** With the intended numbering, the i-th occurrence of a key carries the suffix for i. */
    lemma NumberIntendedRepeatedKey(a: Alphabet<T>, k: seq<T>, n: nat)
      requires a.Valid() && number
      ensures |NumberIntended(a, Repeat(k, n), multiset{})| == n
      ensures forall i :: 0 <= i < n ==> NumberIntended(a, Repeat(k, n), multiset{})[i] == k + Suffix(a, i)
    {
      NumberIntendedLength(a, Repeat(k, n), multiset{});
      forall i | 0 <= i < n
        ensures NumberIntended(a, Repeat(k, n), multiset{})[i] == k + Suffix(a, i)
      {
        NumberIntendedAt(a, Repeat(k, n), multiset{}, i);
        assert Repeat(k, n)[..i] == Repeat(k, i);
        RepeatCount(k, i);
        assert (multiset{} + multiset(Repeat(k, i)))[k] == i;
      }
    }

    /**
      The loop as its docstring and tests describe it: the Counter is
      incremented for the pair's BASE key, the key the suffix is looked up
      with, so the i-th occurrence of a key gets the suffix for i.
    */
    function EmitIntended(a: Alphabet<T>, raw: seq<Subfield<T>>, counter: multiset<seq<T>>): seq<Subfield<T>>
      requires a.Valid()
      decreases |raw|
    {
      if raw == [] then []
      else if Keeps(raw[0].value) then
        var key := NumberedKey(a, BaseKey(a, raw[0].key), counter);
        [Subfield(key, raw[0].value)] + EmitIntended(a, raw[1..], counter + multiset{BaseKey(a, raw[0].key)})
      else
        EmitIntended(a, raw[1..], counter)
    }

    /** What a call of the parser would yield with the intended numbering. */
    function ParseIntended(a: Alphabet<T>, field: seq<T>): seq<Subfield<T>>
      requires Valid() && a.Valid() && !EndsInNewline(a, field)
    {
      EmitIntended(a, Segments(field), multiset{})
    }

    /** The intended loop, stage by stage: the retained values, and their base keys numbered by `NumberIntended`. */
    lemma {:induction false} EmitIntendedStages(a: Alphabet<T>, raw: seq<Subfield<T>>, counter: multiset<seq<T>>)
      requires a.Valid()
      ensures Values(EmitIntended(a, raw, counter)) == Values(Retained(raw))
      ensures Keys(EmitIntended(a, raw, counter)) == NumberIntended(a, BaseKeys(a, Keys(Retained(raw))), counter)
      decreases |raw|
    {
      if raw != [] {
        if Keeps(raw[0].value) {
          EmitIntendedStages(a, raw[1..], counter + multiset{BaseKey(a, raw[0].key)});
          var r := Retained(raw);
          assert r[1..] == Retained(raw[1..]);
          assert BaseKeys(a, Keys(r))[1..] == BaseKeys(a, Keys(r[1..]));
        } else {
          EmitIntendedStages(a, raw[1..], counter);
        }
      }
    }

    /** The intended parse: the kept segments' values, and their base keys numbered by `NumberIntended`. */
    lemma ParseIntendedStages(a: Alphabet<T>, field: seq<T>)
      requires Valid() && a.Valid() && !EndsInNewline(a, field)
      ensures Values(ParseIntended(a, field)) == Values(Retained(Segments(field)))
      ensures Keys(ParseIntended(a, field)) == NumberIntended(a, BaseKeys(a, Keys(Retained(Segments(field)))), multiset{})
    {
      EmitIntendedStages(a, Segments(field), multiset{});
    }

    /**
      The parse as written and the intended parse differ only in the numbering
      suffixes: the same values in the same order, each key beginning with the
      same base key, and no difference at all without `number`.
    */
    lemma ParseAgrees(a: Alphabet<T>, field: seq<T>)
      requires Valid() && a.Valid() && !EndsInNewline(a, field)
      ensures |Parse(a, field)| == |ParseIntended(a, field)| == |Retained(Segments(field))|
      ensures Values(Parse(a, field)) == Values(ParseIntended(a, field))
      ensures forall i :: 0 <= i < |Parse(a, field)| ==>
        BaseKey(a, Retained(Segments(field))[i].key) <= Parse(a, field)[i].key &&
        BaseKey(a, Retained(Segments(field))[i].key) <= ParseIntended(a, field)[i].key
      ensures !number ==> Parse(a, field) == ParseIntended(a, field)
    {
      var r := Retained(Segments(field));
      var bases := BaseKeys(a, Keys(r));
      ParseStages(a, field);
      ParseIntendedStages(a, field);
      NumberCounts(a, bases, multiset{});
      NumberIntendedCounts(a, bases, multiset{});
      assert |Keys(Parse(a, field))| == |bases| == |r|;
      forall i | 0 <= i < |r|
        ensures bases[i] <= Parse(a, field)[i].key && bases[i] <= ParseIntended(a, field)[i].key
      {
        assert Keys(Parse(a, field))[i] == Parse(a, field)[i].key;
        assert Keys(ParseIntended(a, field))[i] == ParseIntended(a, field)[i].key;
      }
      if !number {
        NumberOff(a, bases, multiset{});
        NumberIntendedOff(a, bases, multiset{});
        PairsFromKeysAndValues(Parse(a, field), ParseIntended(a, field));
      }
    }

    // ------------------------------------------------------------------
    // Properties of the parser as a whole
    // ------------------------------------------------------------------

    /** With `empty`, the loop yields one pair per raw pair, with its value; without `lower`, a non-empty raw key begins its emitted key. */
    lemma {:induction false} EmitKeepsAll(a: Alphabet<T>, raw: seq<Subfield<T>>, counter: multiset<seq<T>>)
      requires a.Valid() && empty
      ensures |Emit(a, raw, counter)| == |raw|
      ensures forall i :: 0 <= i < |raw| ==> Emit(a, raw, counter)[i].value == raw[i].value
      ensures !lower ==> forall i :: 0 <= i < |raw| && raw[i].key != [] ==> raw[i].key <= Emit(a, raw, counter)[i].key
      decreases |raw|
    {
      if raw != [] {
        var key := NumberedKey(a, BaseKey(a, raw[0].key), counter);
        var next := counter + multiset{key};
        EmitKeepsAll(a, raw[1..], next);
        var out := Emit(a, raw, counter);
        assert out == [Subfield(key, raw[0].value)] + Emit(a, raw[1..], next);
        forall i | 1 <= i < |raw|
          ensures out[i] == Emit(a, raw[1..], next)[i - 1] && raw[i] == raw[1..][i - 1]
        {
        }
      }
    }

    /** The values `Retained` keeps without `empty`: the non-empty ones, in order. */
    function DropEmpty(vs: seq<seq<T>>): (r: seq<seq<T>>)
    {
      if vs == [] then [] else (if vs[0] == [] then [] else [vs[0]]) + DropEmpty(vs[1..])
    }

    lemma {:induction false} RetainedDropsEmpty(raw: seq<Subfield<T>>)
      requires !empty
      ensures Values(Retained(raw)) == DropEmpty(Values(raw))
      decreases |raw|
    {
      if raw != [] {
        RetainedDropsEmpty(raw[1..]);
        assert Values(raw)[1..] == Values(raw[1..]);
        if raw[0].value != [] {
          assert Values(Retained(raw)) == [raw[0].value] + Values(Retained(raw[1..]));
        }
      }
    }

    /**
      The pairs are the kept segments in order: values are the kept segments'
      values, keys are their base keys numbered with the source's Counter.
    */
    lemma ParseStages(a: Alphabet<T>, field: seq<T>)
      requires Valid() && a.Valid() && !EndsInNewline(a, field)
      ensures Values(Parse(a, field)) == Values(Retained(Segments(field)))
      ensures Keys(Parse(a, field)) == Number(a, BaseKeys(a, Keys(Retained(Segments(field)))), multiset{})
    {
      EmitStages(a, Segments(field), multiset{});
    }

    /**
      With `empty`, every segment is yielded: one pair for the leading segment
      and one per marker used, each carrying its segment's value.
    */
    lemma ParseKeepsEverySegment(a: Alphabet<T>, field: seq<T>)
      requires Valid() && a.Valid() && !EndsInNewline(a, field) && empty
      ensures |Parse(a, field)| == |Segments(field)| == |Splits(field)| + 1
      ensures forall i :: 0 <= i < |Parse(a, field)| ==> Parse(a, field)[i].value == Segments(field)[i].value
    {
      EmitKeepsAll(a, Segments(field), multiset{});
      SegmentsSpans(field);
    }

    /** Without `empty`, exactly the segments with an empty value are dropped, the others keep their order. */
    lemma ParseDropsEmptyValues(a: Alphabet<T>, field: seq<T>)
      requires Valid() && a.Valid() && !EndsInNewline(a, field) && !empty
      ensures Values(Parse(a, field)) == DropEmpty(Values(Segments(field)))
    {
      ParseStages(a, field);
      RetainedDropsEmpty(Segments(field));
    }

    /**
      The round trip of the test module: with `empty` and without `lower`, the
      leading value followed by P + k[:L] + v for every later pair is the field.
    */
    lemma ParseResynth(a: Alphabet<T>, field: seq<T>)
      requires Valid() && a.Valid() && !EndsInNewline(a, field) && empty && !lower
      ensures |Parse(a, field)| >= 1
      ensures Resynth(Parse(a, field)) == field
    {
      var raw := Segments(field);
      var ps := Parse(a, field);
      ParseKeepsEverySegment(a, field);
      forall i | 0 <= i < |ps|
        ensures ps[i].value == raw[i].value && (i >= 1 ==> Cut(ps[i].key) == Cut(raw[i].key))
      {
        if i >= 1 {
          ParseCutAt(a, field, i);
        }
      }
      ResynthCut(ps, raw);
      SegmentsResynth(field);
    }

    /** A later emitted key, cut to L units, is its raw key. */
    lemma ParseCutAt(a: Alphabet<T>, field: seq<T>, i: nat)
      requires Valid() && a.Valid() && !EndsInNewline(a, field) && empty && !lower
      requires 1 <= i < |Segments(field)|
      ensures |Parse(a, field)| == |Segments(field)|
      ensures Cut(Parse(a, field)[i].key) == Cut(Segments(field)[i].key)
    {
      var raw := Segments(field);
      EmitKeepsAll(a, raw, multiset{});
      KeyLength(field, i);
      CutPrefix(raw[i].key, Parse(a, field)[i].key);
    }

    /** A key of exactly L units that begins another key is that key cut to L units. */
    lemma CutPrefix(r: seq<T>, k: seq<T>)
      requires |r| == length && (r != [] ==> r <= k)
      ensures Cut(k) == Cut(r)
    {
      if length > 0 {
        assert k[..length] == r;
      }
    }

    /** Resynthesis depends only on the values and on each later key cut to L units. */
    lemma ResynthCut(ps: seq<Subfield<T>>, qs: seq<Subfield<T>>)
      requires |ps| == |qs| >= 1
      requires forall i :: 0 <= i < |ps| ==> ps[i].value == qs[i].value
      requires forall i :: 1 <= i < |ps| ==> Cut(ps[i].key) == Cut(qs[i].key)
      ensures Resynth(ps) == Resynth(qs)
    {
      assert forall i :: 0 <= i < |ps| - 1 ==> ps[1..][i] == ps[i + 1] && qs[1..][i] == qs[i + 1];
      RejoinCut(ps[1..], qs[1..]);
    }

    /** Every non-leading raw key is exactly L units long. */
    lemma KeyLength(field: seq<T>, i: nat)
      requires Valid() && 1 <= i < |Segments(field)|
      ensures |Segments(field)[i].key| == length
    {
      SegmentsSpans(field);
      assert SegmentAt(field, Splits(field), Segments(field)[1..], i - 1);
    }

    /** An empty field: nothing without `empty`, otherwise the one leading pair with an empty value. */
    lemma ParseEmptyField(a: Alphabet<T>)
      requires Valid() && a.Valid()
      ensures !empty ==> Parse(a, []) == []
      ensures empty ==> Parse(a, []) == [Subfield(NumberedKey(a, BaseKey(a, []), multiset{}), [])]
    {
      var raw := Segments([]);
      assert NextBoundary([], 0) == 0;
      assert raw == [Subfield([], [])];
      assert raw[1..] == [];
      var key := NumberedKey(a, BaseKey(a, []), multiset{});
      assert Emit(a, raw, multiset{}) ==
        if empty then [Subfield(key, [])] + Emit(a, [], multiset{key}) else Emit(a, [], multiset{});
    }

    /**
      When `first` is set it replaces EVERY empty key (the leading one, and any
      key of a zero-length marker), and lowercasing applies after that.
    */
    lemma FirstReplacesEmptyKeys(a: Alphabet<T>, field: seq<T>)
      requires Valid() && a.Valid() && !EndsInNewline(a, field) && first != [] && !number
      ensures |Parse(a, field)| == |Retained(Segments(field))|
      ensures forall i :: 0 <= i < |Parse(a, field)| && Retained(Segments(field))[i].key == [] ==>
        Parse(a, field)[i].key == if lower then a.lowerKey(first) else first
      ensures forall i :: 0 <= i < |Parse(a, field)| && Retained(Segments(field))[i].key != [] ==>
        Parse(a, field)[i].key == if lower then a.lowerKey(Retained(Segments(field))[i].key) else Retained(Segments(field))[i].key
    {
      ParseStages(a, field);
      var r := Retained(Segments(field));
      NumberOff(a, BaseKeys(a, Keys(r)), multiset{});
      forall i | 0 <= i < |r|
        ensures Parse(a, field)[i].key == BaseKey(a, r[i].key)
      {
        assert Keys(Parse(a, field))[i] == BaseKeys(a, Keys(r))[i];
      }
    }
  }
}

=== FILE: fieldutils_examples.dfy ===
/**
  Rows of the tokenizer's test tables (tests/test_fieldutils.py), evaluated on
  the model.
*/
module FieldutilsExamples {
  import Decimal
  import opened Fieldutils

  /** The parser of test "length_0_keep_empty": prefix "a", no key, empty values kept. */
  const LengthZero: SubfieldParser<char> := SubfieldParser("a", length := 0, empty := true)

  /** The parser of test "single_nonempty_subfield_empty_first": prefix "d", empty values kept. */
  const LeadingMarker: SubfieldParser<char> := SubfieldParser("d", empty := true)

  /** The parser of test "length_0_keep_empty_no_number": as `LengthZero`, without numbering. */
  const NoNumber: SubfieldParser<char> := SubfieldParser("a", length := 0, empty := true, number := false)

  /** The parser of test "first_empty_zero": prefix "i", "_" for an empty key, empty values kept, zero suffixes. */
  const FirstEmpty: SubfieldParser<char> := SubfieldParser("i", first := "_", empty := true, zero := true)

  lemma FormatSmall()
    ensures Text.Format(0) == "0" && Text.Format(1) == "1" && Text.Format(2) == "2"
  {
    assert Decimal.Digits(0) == [0] && Decimal.Digits(1) == [1] && Decimal.Digits(2) == [2];
  }

  /** A parser keeping empty values yields the values of the raw segments, whichever the numbering. */
  lemma ValuesOfSegments(p: SubfieldParser<char>, field: string, raw: seq<Subfield<char>>)
    requires p.Valid() && p.empty && !EndsInNewline(Text, field) && p.Segments(field) == raw
    ensures Values(p.Parse(Text, field)) == Values(raw)
    ensures Values(p.ParseIntended(Text, field)) == Values(raw)
  {
    p.ParseStages(Text, field);
    p.ParseIntendedStages(Text, field);
  }

  /** A parser keeping empty values yields the raw keys, replaced and numbered. */
  lemma KeysOfSegments(p: SubfieldParser<char>, field: string, raw: seq<Subfield<char>>, bases: seq<string>)
    requires p.Valid() && p.empty && !EndsInNewline(Text, field) && p.Segments(field) == raw
    requires p.BaseKeys(Text, Keys(raw)) == bases
    ensures Keys(p.ParseIntended(Text, field)) == p.NumberIntended(Text, bases, multiset{})
  {
    p.ParseIntendedStages(Text, field);
  }

  /** The pairs with the given keys and values, one list each. */
  lemma PairsOf(ps: seq<Subfield<char>>, keys: seq<string>, values: seq<string>, expected: seq<Subfield<char>>)
    requires Keys(ps) == keys && Values(ps) == values
    requires |expected| == |keys| == |values|
    requires forall i :: 0 <= i < |expected| ==> expected[i] == Subfield(keys[i], values[i])
    ensures ps == expected
  {
    assert Keys(expected) == keys;
    assert Values(expected) == values;
    PairsFromKeysAndValues(ps, expected);
  }

  /** Where the lazy scan of "data" stops: before each "a", and at the end. */
  lemma BoundariesLengthZero()
    ensures LengthZero.NextBoundary("data", 0) == 1
    ensures LengthZero.NextBoundary("data", 2) == 3
    ensures LengthZero.NextBoundary("data", 4) == 4
  {
    var p := LengthZero;
    var s := "data";
    SliceOne(s, 0); SliceOne(s, 1); SliceOne(s, 2); SliceOne(s, 3);
    assert !p.IsBoundary(s, 0) && p.IsBoundary(s, 1) && !p.IsBoundary(s, 2) && p.IsBoundary(s, 3);
  }

  /** Test "length_0_keep_empty": the raw segments of "data" with a zero-length key after "a". */
  lemma SegmentsLengthZero()
    ensures LengthZero.Segments("data") == [Subfield("", "d"), Subfield("", "t"), Subfield("", "")]
  {
    var p := LengthZero;
    var s := "data";
    BoundariesLengthZero();
    assert s[..1] == "d";
    assert p.PairsFrom(s, 4) == [];
    assert s[4..4] == [] && s[2..2] == [] && s[2..3] == "t";
    assert p.PairsFrom(s, 3) == [Subfield([], [])];
    assert p.PairsFrom(s, 1) == [Subfield("", "t"), Subfield("", "")];
  }

  /**
    The numbering of lines 77-82 as written, on the keys of "length_0_keep_empty":
    the third key is "1" again, where the table expects "2".
  */
  lemma NumberLengthZero()
    ensures LengthZero.Number(Text, Repeat("", 3), multiset{}) == ["", "1", "1"]
  {
    var p := LengthZero;
    var e: string := "";
    var one: string := "1";
    p.NumberRepeatedKey(Text, e, 2);
    FormatSmall();
    assert e + Text.Format(1) == one;
    assert Repeat(one, 2) == [one, one];
  }

  /** The intended numbering on the keys of "length_0_keep_empty" gives the expected "", "1", "2". */
  lemma IntendedLengthZero()
    ensures LengthZero.NumberIntended(Text, Repeat("", 3), multiset{}) == ["", "1", "2"]
  {
    var p := LengthZero;
    var e: string := "";
    p.NumberIntendedRepeatedKey(Text, e, 3);
    FormatSmall();
    var out := p.NumberIntended(Text, Repeat(e, 3), multiset{});
    assert out[0] == e + p.Suffix(Text, 0) == "";
    assert out[1] == e + p.Suffix(Text, 1) == "1";
    assert out[2] == e + p.Suffix(Text, 2) == "2";
  }

  /** Test "length_0_keep_empty": the keys, numbered "", "1", "2". */
  lemma KeysLengthZero()
    ensures Keys(LengthZero.ParseIntended(Text, "data")) == ["", "1", "2"]
  {
    var raw := [Subfield("", "d"), Subfield("", "t"), Subfield("", "")];
    SegmentsLengthZero();
    BasesLengthZero(raw);
    KeysOfSegments(LengthZero, "data", raw, Repeat("", 3));
    IntendedLengthZero();
  }

  /** Three empty keys stay empty (no `first`, no lowering). */
  lemma BasesLengthZero(raw: seq<Subfield<char>>)
    requires raw == [Subfield("", "d"), Subfield("", "t"), Subfield("", "")]
    ensures LengthZero.BaseKeys(Text, Keys(raw)) == Repeat("", 3)
  {
    var e: string := "";
    assert Keys(raw) == Repeat(e, 3);
    assert LengthZero.BaseKey(Text, e) == e;
  }

  /** Test "length_0_keep_empty": the values, the last one empty. */
  lemma ValuesLengthZero()
    ensures Values(LengthZero.Parse(Text, "data")) == ["d", "t", ""]
    ensures Values(LengthZero.ParseIntended(Text, "data")) == ["d", "t", ""]
  {
    var raw := [Subfield("", "d"), Subfield("", "t"), Subfield("", "")];
    assert Values(raw) == ["d", "t", ""];
    SegmentsLengthZero();
    ValuesOfSegments(LengthZero, "data", raw);
  }

  /** Test "length_0_keep_empty": the whole table row. */
  lemma LengthZeroKeepEmpty()
    ensures LengthZero.ParseIntended(Text, "data") == [Subfield("", "d"), Subfield("1", "t"), Subfield("2", "")]
  {
    KeysLengthZero();
    ValuesLengthZero();
    PairsOf(LengthZero.ParseIntended(Text, "data"), ["", "1", "2"], ["d", "t", ""],
      [Subfield("", "d"), Subfield("1", "t"), Subfield("2", "")]);
  }

  /** Where the lazy scan of "data" with prefix "d" stops: at the leading marker, and at the end. */
  lemma BoundariesLeadingMarker()
    ensures LeadingMarker.NextBoundary("data", 0) == 0
    ensures LeadingMarker.NextBoundary("data", 2) == 4
  {
    var p := LeadingMarker;
    var s := "data";
    SliceOne(s, 0); SliceOne(s, 2); SliceOne(s, 3);
    assert p.IsBoundary(s, 0) && !p.IsBoundary(s, 2) && !p.IsBoundary(s, 3) && p.IsBoundary(s, 4);
  }

  /**
    Test "single_nonempty_subfield_empty_first": a field that starts with a
    marker gives an empty leading segment, then the marker's key "a" and the
    value "ta".
  */
  lemma SegmentsLeadingMarker()
    ensures LeadingMarker.Segments("data") == [Subfield("", ""), Subfield("a", "ta")]
  {
    var p := LeadingMarker;
    var s := "data";
    BoundariesLeadingMarker();
    assert s[..0] == [];
    assert p.PairsFrom(s, 4) == [];
    assert s[1..2] == "a" && s[2..4] == "ta";
    assert p.PairsFrom(s, 0) == [Subfield("a", "ta")];
  }

  /** Where the lazy scan of "ðata" stops: before each "a", and at the end; "ð" is no marker. */
  lemma BoundariesNoNumber()
    ensures NoNumber.NextBoundary("ðata", 0) == 1
    ensures NoNumber.NextBoundary("ðata", 2) == 3
    ensures NoNumber.NextBoundary("ðata", 4) == 4
  {
    var p := NoNumber;
    var s := "ðata";
    SliceOne(s, 0); SliceOne(s, 1); SliceOne(s, 2); SliceOne(s, 3);
    assert !p.IsBoundary(s, 0) && p.IsBoundary(s, 1) && !p.IsBoundary(s, 2) && p.IsBoundary(s, 3);
  }

  /** Test "length_0_keep_empty_no_number": the raw segments of "ðata". */
  lemma SegmentsNoNumber()
    ensures NoNumber.Segments("ðata") == [Subfield("", "ð"), Subfield("", "t"), Subfield("", "")]
  {
    var p := NoNumber;
    var s := "ðata";
    BoundariesNoNumber();
    assert s[..1] == "ð";
    assert p.PairsFrom(s, 4) == [];
    assert s[4..4] == [] && s[2..2] == [] && s[2..3] == "t";
    assert p.PairsFrom(s, 3) == [Subfield([], [])];
    assert p.PairsFrom(s, 1) == [Subfield("", "t"), Subfield("", "")];
  }

  /** Test "length_0_keep_empty_no_number": without numbering, the three empty keys stay empty. */
  lemma KeysNoNumber()
    ensures Keys(NoNumber.Parse(Text, "ðata")) == ["", "", ""]
  {
    var p := NoNumber;
    var raw := [Subfield("", "ð"), Subfield("", "t"), Subfield("", "")];
    var e: string := "";
    SegmentsNoNumber();
    p.ParseStages(Text, "ðata");
    assert Keys(raw) == Repeat(e, 3);
    assert p.BaseKey(Text, e) == e;
    p.NumberOff(Text, Repeat(e, 3), multiset{});
  }

  /** Test "length_0_keep_empty_no_number": the values, the last one empty. */
  lemma ValuesNoNumber()
    ensures Values(NoNumber.Parse(Text, "ðata")) == ["ð", "t", ""]
  {
    var raw := [Subfield("", "ð"), Subfield("", "t"), Subfield("", "")];
    assert Values(raw) == ["ð", "t", ""];
    SegmentsNoNumber();
    ValuesOfSegments(NoNumber, "ðata", raw);
  }

  /** Test "length_0_keep_empty_no_number": the whole table row. */
  lemma NoNumberKeepEmpty()
    ensures NoNumber.Parse(Text, "ðata") == [Subfield("", "ð"), Subfield("", "t"), Subfield("", "")]
  {
    KeysNoNumber();
    ValuesNoNumber();
    PairsOf(NoNumber.Parse(Text, "ðata"), ["", "", ""], ["ð", "t", ""],
      [Subfield("", "ð"), Subfield("", "t"), Subfield("", "")]);
  }

  /**
    The same row under the intended numbering, and the table's resynthesis:
    "ð", then "a" + "" + "t", then "a" + "" + "", is the field.
  */
  lemma NoNumberResynth()
    ensures NoNumber.ParseIntended(Text, "ðata") == NoNumber.Parse(Text, "ðata")
    ensures NoNumber.Resynth(NoNumber.Parse(Text, "ðata")) == "ðata"
  {
    NoNumber.ParseAgrees(Text, "ðata");
    NoNumber.ParseResynth(Text, "ðata");
  }

  /** Where the lazy scan of "ioisis test" stops: at each "i", and at the end. */
  lemma BoundariesFirstEmptyZero()
    ensures FirstEmpty.NextBoundary("ioisis test", 0) == 0
    ensures FirstEmpty.NextBoundary("ioisis test", 2) == 2
    ensures FirstEmpty.NextBoundary("ioisis test", 4) == 4
    ensures FirstEmpty.NextBoundary("ioisis test", 6) == 11
  {
    var p := FirstEmpty;
    var s := "ioisis test";
    SliceOne(s, 0); SliceOne(s, 2); SliceOne(s, 4);
    assert p.IsBoundary(s, 0) && p.IsBoundary(s, 2) && p.IsBoundary(s, 4) && p.IsBoundary(s, 11);
    SliceOne(s, 6); SliceOne(s, 7); SliceOne(s, 8); SliceOne(s, 9); SliceOne(s, 10);
    assert !p.IsBoundary(s, 10) && !p.IsBoundary(s, 9) && !p.IsBoundary(s, 8);
    assert !p.IsBoundary(s, 7) && !p.IsBoundary(s, 6);
    assert p.NextBoundary(s, 8) == 11;
  }

  lemma SliceOne(s: string, i: nat)
    requires i < |s|
    ensures s[i..i + 1] == [s[i]]
  {
  }

  /** Test "first_empty_zero": the raw segments of "ioisis test" split at "i". */
  lemma SegmentsFirstEmptyZero()
    ensures FirstEmpty.Segments("ioisis test")
      == [Subfield("", ""), Subfield("o", ""), Subfield("s", ""), Subfield("s", " test")]
  {
    var p := FirstEmpty;
    var s := "ioisis test";
    BoundariesFirstEmptyZero();
    assert s[..0] == [];
    assert p.PairsFrom(s, 11) == [];
    assert s[5..6] == "s" && s[6..11] == " test";
    assert p.PairsFrom(s, 4) == [Subfield("s", " test")];
    assert s[3..4] == "s" && s[4..4] == [];
    assert p.PairsFrom(s, 2) == [Subfield("s", ""), Subfield("s", " test")];
    assert s[1..2] == "o" && s[2..2] == [];
    assert p.PairsFrom(s, 0) == [Subfield("o", ""), Subfield("s", ""), Subfield("s", " test")];
  }

  /** With `zero`, a key whose counter reads 0 gets "0" and one whose counter reads 1 gets "1". */
  lemma SuffixesFirstEmptyZero()
    ensures FirstEmpty.NumberedKey(Text, "_", multiset{}) == "_0"
    ensures FirstEmpty.NumberedKey(Text, "o", multiset{"_0"}) == "o0"
    ensures FirstEmpty.NumberedKey(Text, "s", multiset{"_0", "o0"}) == "s0"
    ensures FirstEmpty.NumberedKey(Text, "s", multiset{"_0", "o0", "s0"}) == "s0"
    ensures FirstEmpty.NumberedKey(Text, "o", multiset{"_"}) == "o0"
    ensures FirstEmpty.NumberedKey(Text, "s", multiset{"_", "o"}) == "s0"
    ensures FirstEmpty.NumberedKey(Text, "s", multiset{"_", "o", "s"}) == "s1"
  {
    FormatSmall();
    var p := FirstEmpty;
    assert p.Suffix(Text, 0) == "0" && p.Suffix(Text, 1) == "1";
  }

  /**
    The numbering as written on the keys of "first_empty_zero": the repeated
    "s" gets "s0" again, where the table expects "s1".
  */
  lemma NumberFirstEmptyZero()
    ensures FirstEmpty.Number(Text, ["_", "o", "s", "s"], multiset{}) == ["_0", "o0", "s0", "s0"]
  {
    var p := FirstEmpty;
    var u, o, s: string := "_", "o", "s";
    var u0, o0, s0: string := "_0", "o0", "s0";
    SuffixesFirstEmptyZero();
    NumberTailFirstEmptyZero();
    assert multiset{u0} + multiset{o0} == multiset{u0, o0} && [o, s, s][1..] == [s, s];
    assert p.Number(Text, [o, s, s], multiset{u0}) == [o0, s0, s0];
    assert multiset{} + multiset{u0} == multiset{u0} && [u, o, s, s][1..] == [o, s, s];
  }

  /** The as-written numbering of the two trailing "s" keys, after "_0" and "o0". */
  lemma NumberTailFirstEmptyZero()
    ensures FirstEmpty.Number(Text, ["s", "s"], multiset{"_0", "o0"}) == ["s0", "s0"]
  {
    var p := FirstEmpty;
    var s: string := "s";
    var u0, o0, s0: string := "_0", "o0", "s0";
    SuffixesFirstEmptyZero();
    assert p.Number(Text, [s], multiset{u0, o0, s0}) == [s0];
    assert multiset{u0, o0} + multiset{s0} == multiset{u0, o0, s0} && [s, s][1..] == [s];
  }

  /** The intended numbering on the keys of "first_empty_zero" gives the expected "_0", "o0", "s0", "s1". */
  lemma IntendedFirstEmptyZero()
    ensures FirstEmpty.NumberIntended(Text, ["_", "o", "s", "s"], multiset{}) == ["_0", "o0", "s0", "s1"]
  {
    var p := FirstEmpty;
    var u, o, s: string := "_", "o", "s";
    var u0, o0, s0, s1: string := "_0", "o0", "s0", "s1";
    SuffixesFirstEmptyZero();
    IntendedTailFirstEmptyZero();
    assert multiset{u} + multiset{o} == multiset{u, o} && [o, s, s][1..] == [s, s];
    assert p.NumberIntended(Text, [o, s, s], multiset{u}) == [o0, s0, s1];
    assert multiset{} + multiset{u} == multiset{u} && [u, o, s, s][1..] == [o, s, s];
  }

  /** The intended numbering of the two trailing "s" keys, after "_" and "o": "s0" then "s1". */
  lemma IntendedTailFirstEmptyZero()
    ensures FirstEmpty.NumberIntended(Text, ["s", "s"], multiset{"_", "o"}) == ["s0", "s1"]
  {
    var p := FirstEmpty;
    var u, o, s: string := "_", "o", "s";
    var s0, s1: string := "s0", "s1";
    SuffixesFirstEmptyZero();
    assert p.NumberIntended(Text, [s], multiset{u, o, s}) == [s1];
    assert multiset{u, o} + multiset{s} == multiset{u, o, s} && [s, s][1..] == [s];
  }

  /** Test "first_empty_zero": the keys, `first` replacing the empty leading key and "s" numbered twice. */
  lemma KeysFirstEmptyZero()
    ensures Keys(FirstEmpty.ParseIntended(Text, "ioisis test")) == ["_0", "o0", "s0", "s1"]
  {
    var raw := [Subfield("", ""), Subfield("o", ""), Subfield("s", ""), Subfield("s", " test")];
    SegmentsFirstEmptyZero();
    BasesFirstEmptyZero(raw);
    KeysOfSegments(FirstEmpty, "ioisis test", raw, ["_", "o", "s", "s"]);
    IntendedFirstEmptyZero();
  }

  /**
    The loop as written, over the modelled segments of test "first_empty_zero":
    the second "s" gets "s0" again, not the expected "s1".
  */
  lemma KeysAsWrittenFirstEmptyZero()
    ensures Keys(FirstEmpty.Parse(Text, "ioisis test")) == ["_0", "o0", "s0", "s0"]
  {
    var raw := [Subfield("", ""), Subfield("o", ""), Subfield("s", ""), Subfield("s", " test")];
    SegmentsFirstEmptyZero();
    BasesFirstEmptyZero(raw);
    FirstEmpty.ParseStages(Text, "ioisis test");
    NumberFirstEmptyZero();
  }

  /** The leading empty key becomes `first`; the others are kept. */
  lemma BasesFirstEmptyZero(raw: seq<Subfield<char>>)
    requires raw == [Subfield("", ""), Subfield("o", ""), Subfield("s", ""), Subfield("s", " test")]
    ensures FirstEmpty.BaseKeys(Text, Keys(raw)) == ["_", "o", "s", "s"]
  {
    assert Keys(raw) == ["", "o", "s", "s"];
  }

  /** Test "first_empty_zero": the values, empty up to the last. */
  lemma ValuesFirstEmptyZero()
    ensures Values(FirstEmpty.Parse(Text, "ioisis test")) == ["", "", "", " test"]
    ensures Values(FirstEmpty.ParseIntended(Text, "ioisis test")) == ["", "", "", " test"]
  {
    var raw := [Subfield("", ""), Subfield("o", ""), Subfield("s", ""), Subfield("s", " test")];
    assert Values(raw) == ["", "", "", " test"];
    SegmentsFirstEmptyZero();
    ValuesOfSegments(FirstEmpty, "ioisis test", raw);
  }

  /** Test "first_empty_zero": the whole table row. */
  lemma FirstEmptyZero()
    ensures FirstEmpty.ParseIntended(Text, "ioisis test")
      == [Subfield("_0", ""), Subfield("o0", ""), Subfield("s0", ""), Subfield("s1", " test")]
  {
    KeysFirstEmptyZero();
    ValuesFirstEmptyZero();
    PairsOf(FirstEmpty.ParseIntended(Text, "ioisis test"), ["_0", "o0", "s0", "s1"], ["", "", "", " test"],
      [Subfield("_0", ""), Subfield("o0", ""), Subfield("s0", ""), Subfield("s1", " test")]);
  }

  /** What the source yields for the row of test "length_0_keep_empty": "", "1", "1" where "", "1", "2" is expected. */
  lemma AsWrittenLengthZero()
    ensures LengthZero.Parse(Text, "data") == [Subfield("", "d"), Subfield("1", "t"), Subfield("1", "")]
  {
    KeysAsWrittenLengthZero();
    ValuesLengthZero();
    PairsOf(LengthZero.Parse(Text, "data"), ["", "1", "1"], ["d", "t", ""],
      [Subfield("", "d"), Subfield("1", "t"), Subfield("1", "")]);
  }

  lemma KeysAsWrittenLengthZero()
    ensures Keys(LengthZero.Parse(Text, "data")) == ["", "1", "1"]
  {
    var raw := [Subfield("", "d"), Subfield("", "t"), Subfield("", "")];
    SegmentsLengthZero();
    BasesLengthZero(raw);
    LengthZero.ParseStages(Text, "data");
    NumberLengthZero();
  }

  /**
    The as-written parse of the modelled segmentation of test
    "first_empty_zero": the last key is "s0" where "s1" is expected.
  */
  lemma AsWrittenFirstEmptyZero()
    ensures FirstEmpty.Parse(Text, "ioisis test")
      == [Subfield("_0", ""), Subfield("o0", ""), Subfield("s0", ""), Subfield("s0", " test")]
  {
    KeysAsWrittenFirstEmptyZero();
    ValuesFirstEmptyZero();
    PairsOf(FirstEmpty.Parse(Text, "ioisis test"), ["_0", "o0", "s0", "s0"], ["", "", "", " test"],
      [Subfield("_0", ""), Subfield("o0", ""), Subfield("s0", ""), Subfield("s0", " test")]);
  }
}

=== FILE: iso.dfy ===
/**
  The pure pieces of the ISIS ISO 2709 record model: the ASCII-decimal integer
  adapter, the suffix check/trim adapter, the field count derived from the base
  address, the directory contiguity check, the CR/LF stripping applied to the
  input, and the conversion of a parsed record into a tag-indexed dictionary.

  The `construct` framing (Struct, Restreamed, Embedded, Const, Default) is not
  modelled; a field width that the source takes from the subconstruct's size
  is a parameter here.
*/
module Iso {
  import Decimal
  import opened Ascii
  import opened Wrappers

  const FIELD_TERMINATOR: seq<uint8> := [35]   // b"#"
  const RECORD_TERMINATOR: seq<uint8> := [35]  // b"#"

  // ------------------------------------------------------------------
  // IntInASCII
  // ------------------------------------------------------------------

  function ZeroBytes(k: nat): (r: seq<uint8>)
    ensures |r| == k && forall i :: 0 <= i < k ==> r[i] == ZERO
  {
    if k == 0 then [] else [ZERO] + ZeroBytes(k - 1)
  }

  /** `b"%d" % n`: a minus sign for a negative n, then the shortest numeral of its magnitude. */
  function FormatInt(n: int): (r: seq<uint8>)
    ensures n >= 0 ==> r == DigitBytes(Decimal.Digits(n))
    ensures n < 0 ==> r == [45] + DigitBytes(Decimal.Digits(-n))
  {
    if n < 0 then [45] + DigitBytes(Decimal.Digits(-n)) else DigitBytes(Decimal.Digits(n))
  }

  /** How many pad bytes bring a numeral of the given length up to width. */
  function PadCount(len: nat, width: nat): nat
  {
    if len >= width then 0 else width - len
  }

  /** `bytes.zfill(width)`: pad on the left with b"0" up to width, after a leading sign if any. */
  function ZFill(s: seq<uint8>, width: nat): (r: seq<uint8>)
    ensures |r| == |s| + PadCount(|s|, width)
  {
    if |s| >= width then s
    else if |s| > 0 && (s[0] == 43 || s[0] == 45) then [s[0]] + ZeroBytes(width - |s|) + s[1..]
    else ZeroBytes(width - |s|) + s
  }

  /** The padding is b"0"s; a sign stays in front of it, everything else follows it unchanged. */
  lemma ZFillShape(s: seq<uint8>, width: nat)
    ensures var r, p := ZFill(s, width), PadCount(|s|, width);
      |s| > 0 && (s[0] == 43 || s[0] == 45) ==>
        r[0] == s[0] && r[1 + p..] == s[1..] && forall i :: 1 <= i <= p ==> r[i] == ZERO
    ensures var r, p := ZFill(s, width), PadCount(|s|, width);
      !(|s| > 0 && (s[0] == 43 || s[0] == 45)) ==>
        r[p..] == s && forall i :: 0 <= i < p ==> r[i] == ZERO
  {
  }

  /**
    `IntInASCII._encode`: n in decimal, zero-padded to the field width.  The
    output is longer than the width only when the numeral is.
  */
  function EncodeInt(n: int, width: nat): seq<uint8>
  {
    ZFill(FormatInt(n), width)
  }

  /** A non-negative n encodes to digits only; a negative n keeps its sign in front of the padding. */
  lemma EncodeIntShape(n: int, width: nat)
    ensures n >= 0 ==> IsDecimal(EncodeInt(n, width))
    ensures n >= 0 ==> |EncodeInt(n, width)| == |Decimal.Digits(n)| + PadCount(|Decimal.Digits(n)|, width)
    ensures n < 0 ==> |EncodeInt(n, width)| == 1 + |Decimal.Digits(-n)| + PadCount(1 + |Decimal.Digits(-n)|, width)
    ensures n < 0 ==> EncodeInt(n, width)[0] == 45
  {
    ZFillShape(FormatInt(n), width);
    if n >= 0 {
      EncodeIntPadded(n, width);
    }
  }

  /** `IntInASCII._decode` on a field made of ASCII digits only. */
  function DecodeInt(b: seq<uint8>): nat
    requires |b| >= 1 && IsDecimal(b)
  {
    Decimal.Value(DigitValues(b))
  }

  lemma EncodeIntPadded(n: nat, width: nat)
    ensures EncodeInt(n, width) == ZeroBytes(PadCount(|Decimal.Digits(n)|, width)) + DigitBytes(Decimal.Digits(n))
  {
    var s := DigitBytes(Decimal.Digits(n));
    assert FormatInt(n) == s;
    assert s[0] != 43 && s[0] != 45;
    if |s| >= width {
      assert ZFill(s, width) == s;
      assert ZeroBytes(0) + s == s;
    } else {
      assert ZFill(s, width) == ZeroBytes(width - |s|) + s;
    }
  }

  lemma ZeroBytesCons(p: nat)
    ensures ZeroBytes(p + 1) == [ZERO] + ZeroBytes(p)
  {
  }

  /** Decoding an encoded non-negative integer gives it back, whatever the width. */
  lemma DecodeEncodeInt(n: nat, width: nat)
    ensures IsDecimal(EncodeInt(n, width)) && |EncodeInt(n, width)| >= 1
    ensures DecodeInt(EncodeInt(n, width)) == n
  {
    var ds := Decimal.Digits(n);
    var k := PadCount(|ds|, width);
    EncodeIntPadded(n, width);
    var e := EncodeInt(n, width);
    assert e == ZeroBytes(k) + DigitBytes(ds);
    DigitValuesPadded(k, ds);
    Decimal.ValueLeadingZeros(k, ds);
    Decimal.ValueOfDigits(n);
  }

  lemma DigitValuesPadded(k: nat, ds: seq<nat>)
    requires Decimal.IsDigits(ds)
    ensures IsDecimal(ZeroBytes(k) + DigitBytes(ds))
    ensures DigitValues(ZeroBytes(k) + DigitBytes(ds)) == Decimal.Zeros(k) + ds
  {
    DigitValuesZeros(k);
    DigitValuesOfBytes(ds);
    DigitValuesConcat(ZeroBytes(k), DigitBytes(ds));
  }

  lemma DigitValuesConcat(x: seq<uint8>, y: seq<uint8>)
    requires IsDecimal(x) && IsDecimal(y)
    ensures IsDecimal(x + y)
    ensures DigitValues(x + y) == DigitValues(x) + DigitValues(y)
  {
    var xy := x + y;
    assert forall i :: 0 <= i < |xy| ==> xy[i] == if i < |x| then x[i] else y[i - |x|];
    var l, r := DigitValues(xy), DigitValues(x) + DigitValues(y);
    forall i | 0 <= i < |l|
      ensures l[i] == r[i]
    {
      if i < |x| {
        assert r[i] == DigitValues(x)[i];
      } else {
        assert r[i] == DigitValues(y)[i - |x|];
      }
    }
    assert l == r;
  }

  lemma {:induction false} DigitValuesZeros(k: nat)
    ensures IsDecimal(ZeroBytes(k)) && DigitValues(ZeroBytes(k)) == Decimal.Zeros(k)
    decreases k
  {
    if k > 0 {
      DigitValuesZeros(k - 1);
      assert ZeroBytes(k)[1..] == ZeroBytes(k - 1);
    }
  }

  lemma DigitValuesOfBytes(ds: seq<nat>)
    requires Decimal.IsDigits(ds)
    ensures DigitValues(DigitBytes(ds)) == ds
  {
    var dv := DigitValues(DigitBytes(ds));
    assert forall i :: 0 <= i < |ds| ==> dv[i] == ds[i];
  }

  /** A width-w field decoded and encoded again at width w is unchanged (leading zeros included). */
  lemma {:induction false} EncodeDecodeInt(b: seq<uint8>)
    requires |b| >= 1 && IsDecimal(b)
    ensures EncodeInt(DecodeInt(b), |b|) == b
    decreases |b|
  {
    if |b| == 1 || b[0] != ZERO {
      EncodeDecodeSignificant(b);
    } else {
      DecimalTail(b);
      EncodeDecodeInt(b[1..]);
      EncodeDecodeLeadingZero(b);
    }
  }

  lemma DecimalTail(b: seq<uint8>)
    requires |b| >= 1 && IsDecimal(b)
    ensures IsDecimal(b[1..])
  {
    assert forall i :: 0 <= i < |b| - 1 ==> b[1..][i] == b[i + 1];
  }

  lemma EncodeDecodeLeadingZero(b: seq<uint8>)
    requires |b| >= 2 && IsDecimal(b) && b[0] == ZERO
    requires EncodeInt(DecodeInt(b[1..]), |b| - 1) == b[1..]
    ensures EncodeInt(DecodeInt(b), |b|) == b
  {
    var tail := b[1..];
    var v := DecodeInt(tail);
    DecodeLeadingZero(b);
    EncodeIntPadded(v, |tail|);
    assert |Decimal.Digits(v)| <= |tail|;
    EncodeOneMore(v, |tail|);
    assert b == [b[0]] + tail;
  }

  lemma EncodeDecodeSignificant(b: seq<uint8>)
    requires |b| >= 1 && IsDecimal(b) && (|b| == 1 || b[0] != ZERO)
    ensures EncodeInt(DecodeInt(b), |b|) == b
  {
    var ds := DigitValues(b);
    Decimal.DigitsOfValue(ds);
    var v := DecodeInt(b);
    assert Decimal.Digits(v) == ds;
    DigitBytesOfValues(b);
    EncodeIntPadded(v, |b|);
    assert PadCount(|ds|, |b|) == 0;
    assert ZeroBytes(0) + b == b;
  }

  lemma DigitBytesOfValues(b: seq<uint8>)
    requires IsDecimal(b)
    ensures DigitBytes(DigitValues(b)) == b
  {
  }

  lemma DecodeLeadingZero(b: seq<uint8>)
    requires |b| >= 2 && IsDecimal(b) && b[0] == ZERO
    ensures DecodeInt(b) == DecodeInt(b[1..])
  {
    assert DigitValues(b) == Decimal.Zeros(1) + DigitValues(b[1..]);
    Decimal.ValueLeadingZeros(1, DigitValues(b[1..]));
  }

  lemma EncodeOneMore(v: nat, w: nat)
    requires |Decimal.Digits(v)| <= w
    ensures EncodeInt(v, w + 1) == [ZERO] + EncodeInt(v, w)
  {
    var len, ds := |Decimal.Digits(v)|, DigitBytes(Decimal.Digits(v));
    calc {
      EncodeInt(v, w + 1);
    == { EncodeIntPadded(v, w + 1); }
      ZeroBytes(PadCount(len, w + 1)) + ds;
    == { PadCountOneMore(len, w); }
      ZeroBytes(PadCount(len, w) + 1) + ds;
    == { PaddedCons(PadCount(len, w), ds); }
      [ZERO] + (ZeroBytes(PadCount(len, w)) + ds);
    == { EncodeIntPadded(v, w); }
      [ZERO] + EncodeInt(v, w);
    }
  }

  lemma PadCountOneMore(len: nat, w: nat)
    requires len <= w
    ensures PadCount(len, w + 1) == PadCount(len, w) + 1
  {
  }

  lemma PaddedCons(p: nat, s: seq<uint8>)
    ensures ZeroBytes(p + 1) + s == [ZERO] + (ZeroBytes(p) + s)
  {
    ZeroBytesCons(p);
  }

  /** The encoding is exactly as wide as the field when n is below 10^width. */
  lemma EncodeIntFits(n: nat, width: nat)
    requires width >= 1
    ensures |EncodeInt(n, width)| == width <==> n < Decimal.Pow10(width)
  {
    Decimal.DigitsFit(n, width);
  }

  // ------------------------------------------------------------------
  // CheckTrimSuffix
  // ------------------------------------------------------------------

  predicate EndsWith(s: seq<uint8>, suffix: seq<uint8>)
  {
    |suffix| <= |s| && s[|s| - |suffix|..] == suffix
  }

  /**
    `CheckTrimSuffix._decode`: CheckError when the bytes do not end with the
    suffix, else the bytes without it.  For an empty suffix the source's
    `obj[:-0]` is `obj[:0]`, the empty bytes.
  */
  function TrimSuffix(obj: seq<uint8>, suffix: seq<uint8>): (r: Result<seq<uint8>, Error>)
    ensures r.Err? <==> !EndsWith(obj, suffix)
    ensures r.Err? ==> r.error == CheckError
    ensures r.Ok? && |suffix| > 0 ==> r.value + suffix == obj
    ensures r.Ok? && |suffix| == 0 ==> r.value == []
  {
    if !EndsWith(obj, suffix) then Err(CheckError)
    else if |suffix| == 0 then Ok([])
    else Ok(obj[..|obj| - |suffix|])
  }

  /** `CheckTrimSuffix._encode` */
  function AppendSuffix(obj: seq<uint8>, suffix: seq<uint8>): (r: seq<uint8>)
    ensures |r| == |obj| + |suffix| && EndsWith(r, suffix) && r[..|obj|] == obj
  {
    obj + suffix
  }

  lemma TrimAppend(x: seq<uint8>, suffix: seq<uint8>)
    requires |suffix| > 0
    ensures TrimSuffix(AppendSuffix(x, suffix), suffix) == Ok(x)
  {
    var y := AppendSuffix(x, suffix);
    assert y[..|y| - |suffix|] == x;
  }

  lemma AppendTrim(y: seq<uint8>, suffix: seq<uint8>)
    requires |suffix| > 0 && EndsWith(y, suffix)
    ensures TrimSuffix(y, suffix).Ok? && AppendSuffix(TrimSuffix(y, suffix).value, suffix) == y
  {
  }

  // ------------------------------------------------------------------
  // Leader and directory
  // ------------------------------------------------------------------

  /**
    `num_fields`: `(base_addr - 25) // 12`, Python's floor division.  The base
    address counts the 24-byte leader, 12 bytes per directory entry and the
    directory's terminator.
  */
  function NumFields(baseAddr: int): (n: int)
    ensures 12 * n + 25 <= baseAddr < 12 * n + 37
  {
    (baseAddr - 25) / 12
  }

  lemma NumFieldsOfLayout(entries: nat)
    ensures NumFields(24 + 12 * entries + 1) == entries
  {
  }

  /** One directory entry: a 3-byte tag, the field's length and its position in the field data. */
  datatype DirEntry = DirEntry(tag: seq<uint8>, len: nat, pos: nat)

  /** The `Check` after the directory: fields are laid out back to back from position 0. */
  predicate DirectoryContiguous(dir: seq<DirEntry>)
  {
    |dir| == 0 ||
    (dir[0].pos == 0 && forall i :: 0 <= i < |dir| - 1 ==> dir[i + 1].pos == dir[i].pos + dir[i].len)
  }

  /** Total length of the given entries' fields. */
  function LenSum(dir: seq<DirEntry>): nat
  {
    if dir == [] then 0 else LenSum(dir[..|dir| - 1]) + dir[|dir| - 1].len
  }

  /** The check passes exactly when every field starts where the fields before it end. */
  lemma DirectoryContiguousOffsets(dir: seq<DirEntry>)
    ensures DirectoryContiguous(dir) <==> forall i :: 0 <= i < |dir| ==> dir[i].pos == LenSum(dir[..i])
  {
    if DirectoryContiguous(dir) {
      forall i | 0 <= i < |dir|
        ensures dir[i].pos == LenSum(dir[..i])
      {
        ContiguousPrefix(dir, i);
      }
    }
    if forall i :: 0 <= i < |dir| ==> dir[i].pos == LenSum(dir[..i]) {
      if |dir| > 0 {
        assert dir[0].pos == LenSum(dir[..0]);
        forall i | 0 <= i < |dir| - 1
          ensures dir[i + 1].pos == dir[i].pos + dir[i].len
        {
          assert dir[..i + 1][..i] == dir[..i];
          assert dir[i + 1].pos == LenSum(dir[..i + 1]);
          assert dir[i].pos == LenSum(dir[..i]);
        }
      }
    }
  }

  lemma {:induction false} ContiguousPrefix(dir: seq<DirEntry>, i: nat)
    requires DirectoryContiguous(dir) && i < |dir|
    ensures dir[i].pos == LenSum(dir[..i])
  {
    if i == 0 {
      assert dir[..0] == [];
    } else {
      ContiguousPrefix(dir, i - 1);
      assert dir[..i][..i - 1] == dir[..i - 1];
    }
  }

  // ------------------------------------------------------------------
  // The Restreamed decoder: CR and LF are removed before parsing
  // ------------------------------------------------------------------

  /** `re.compile(b"[\r\n]").sub(b"", chunk)` */
  function StripCrLf(data: seq<uint8>): (r: seq<uint8>)
    ensures |r| <= |data|
  {
    if data == [] then []
    else (if data[0] == CR || data[0] == LF then [] else [data[0]]) + StripCrLf(data[1..])
  }

  /** No CR or LF is left. */
  lemma {:induction false} StripCrLfRemoves(data: seq<uint8>)
    ensures forall i :: 0 <= i < |StripCrLf(data)| ==> StripCrLf(data)[i] != CR && StripCrLf(data)[i] != LF
    decreases |data|
  {
    if data != [] {
      StripCrLfRemoves(data[1..]);
      var h := if data[0] == CR || data[0] == LF then [] else [data[0]];
      var rest := StripCrLf(data[1..]);
      var r := StripCrLf(data);
      assert r == h + rest;
      forall i | 0 <= i < |r|
        ensures r[i] != CR && r[i] != LF
      {
        if i >= |h| {
          assert r[i] == rest[i - |h|];
        }
      }
    }
  }

  /** Every byte other than CR and LF occurs as often as before. */
  lemma {:induction false} StripCrLfKeeps(data: seq<uint8>)
    ensures forall x :: x != CR && x != LF ==> multiset(StripCrLf(data))[x] == multiset(data)[x]
    decreases |data|
  {
    if data != [] {
      StripCrLfKeeps(data[1..]);
      var h := if data[0] == CR || data[0] == LF then [] else [data[0]];
      var rest := StripCrLf(data[1..]);
      assert StripCrLf(data) == h + rest;
      assert data == [data[0]] + data[1..];
      assert multiset(data) == multiset{data[0]} + multiset(data[1..]);
      assert multiset(h + rest) == multiset(h) + multiset(rest);
    }
  }

  /** Stripping works chunk by chunk (the decoder unit is one byte), and is the identity on bytes without CR or LF. */
  lemma {:induction false} StripCrLfChunks(a: seq<uint8>, b: seq<uint8>)
    ensures StripCrLf(a + b) == StripCrLf(a) + StripCrLf(b)
    decreases |a|
  {
    if a != [] {
      StripCrLfChunks(a[1..], b);
      assert (a + b)[1..] == a[1..] + b;
    } else {
      assert a + b == b;
    }
  }

  lemma {:induction false} StripCrLfIdentity(data: seq<uint8>)
    requires forall i :: 0 <= i < |data| ==> data[i] != CR && data[i] != LF
    ensures StripCrLf(data) == data
    decreases |data|
  {
    if data != [] {
      StripCrLfIdentity(data[1..]);
    }
  }

  // ------------------------------------------------------------------
  // con2dict
  // ------------------------------------------------------------------

  /** A dictionary key: the source yields a str for most tags and the bytes b"0" for an all-zero tag. */
  datatype TagKey = TextKey(text: string) | BytesKey(bytes: seq<uint8>)

  /** `tag.lstrip(b"0")` */
  function LStripZeros(tag: seq<uint8>): (r: seq<uint8>)
    ensures |r| <= |tag| && r == tag[|tag| - |r|..]
    ensures r != [] ==> r[0] != ZERO
    ensures forall i :: 0 <= i < |tag| - |r| ==> tag[i] == ZERO
  {
    if tag != [] && tag[0] == ZERO then LStripZeros(tag[1..]) else tag
  }

  predicate IsAscii(s: seq<uint8>)
  {
    forall i :: 0 <= i < |s| ==> s[i] < 128
  }

  /** `bytes.decode("ascii")` on ASCII bytes. */
  function AsciiText(s: seq<uint8>): (r: string)
    requires IsAscii(s)
    ensures |r| == |s| && forall i :: 0 <= i < |s| ==> r[i] as int == s[i] as int
  {
    if s == [] then [] else [(s[0] as int) as char] + AsciiText(s[1..])
  }

  /** `tag.lstrip(b"0").decode("ascii") or b"0"`, with the decoding error a byte above 127 raises. */
  function TagKeyOf(tag: seq<uint8>): (r: Result<TagKey, Error>)
  {
    var stripped := LStripZeros(tag);
    if !IsAscii(stripped) then Err(UnicodeDecodeError)
    else if stripped == [] then Ok(BytesKey([ZERO]))
    else Ok(TextKey(AsciiText(stripped)))
  }

  /** A tag made of '0's only gets the bytes key b"0"; any other ASCII tag gets its text without leading zeros. */
  lemma TagKeyOfCases(tag: seq<uint8>)
    ensures (forall i :: 0 <= i < |tag| ==> tag[i] == ZERO) ==> TagKeyOf(tag) == Ok(BytesKey([ZERO]))
    ensures IsAscii(tag) && (exists i :: 0 <= i < |tag| && tag[i] != ZERO) ==>
      TagKeyOf(tag).Ok? && TagKeyOf(tag).value.TextKey? && |TagKeyOf(tag).value.text| >= 1
    ensures TagKeyOf(tag).Err? <==> !IsAscii(tag)
  {
    StrippedAscii(tag);
    StrippedEmpty(tag);
  }

  /** Stripping leading b"0"s keeps a tag ASCII, and keeps any byte above 127. */
  lemma {:induction false} StrippedAscii(tag: seq<uint8>)
    ensures IsAscii(LStripZeros(tag)) <==> IsAscii(tag)
    decreases |tag|
  {
    if tag != [] && tag[0] == ZERO {
      StrippedAscii(tag[1..]);
      AsciiCons(tag);
    }
  }

  /** A leading ASCII byte decides nothing: the rest is ASCII exactly when the whole is. */
  lemma AsciiCons(s: seq<uint8>)
    requires s != [] && s[0] < 128
    ensures IsAscii(s) <==> IsAscii(s[1..])
  {
    if IsAscii(s[1..]) {
      forall i | 0 <= i < |s|
        ensures s[i] < 128
      {
        if i > 0 {
          assert s[i] == s[1..][i - 1];
        }
      }
    }
  }

  /** Only a tag of b"0"s strips down to nothing. */
  lemma StrippedEmpty(tag: seq<uint8>)
    ensures LStripZeros(tag) == [] <==> forall i :: 0 <= i < |tag| ==> tag[i] == ZERO
  {
    var stripped := LStripZeros(tag);
    if stripped != [] {
      assert tag[|tag| - |stripped|] == stripped[0] != ZERO;
    }
  }

  /**
    The key the test module expects for every tag: text, "0" for an all-zero
    tag, the same as `TagKeyOf` on every other tag.
  */
  function TagKeyIntended(tag: seq<uint8>): (r: Result<TagKey, Error>)
  {
    var stripped := LStripZeros(tag);
    if !IsAscii(stripped) then Err(UnicodeDecodeError)
    else Ok(TextKey(if stripped == [] then "0" else AsciiText(stripped)))
  }

  lemma TagKeyIntendedIsText(tag: seq<uint8>)
    ensures TagKeyIntended(tag).Ok? ==> TagKeyIntended(tag).value.TextKey? && |TagKeyIntended(tag).value.text| >= 1
    ensures (exists i :: 0 <= i < |tag| && tag[i] != ZERO) ==> TagKeyIntended(tag) == TagKeyOf(tag)
    ensures (forall i :: 0 <= i < |tag| ==> tag[i] == ZERO) ==> TagKeyIntended(tag) == Ok(TextKey("0"))
    ensures TagKeyIntended(tag).Err? <==> !IsAscii(tag)
  {
    StrippedAscii(tag);
    var stripped := LStripZeros(tag);
    if exists i :: 0 <= i < |tag| && tag[i] != ZERO {
      var i :| 0 <= i < |tag| && tag[i] != ZERO;
      assert stripped != [];
    }
  }

  /** The directory tag b"000" becomes the bytes key b"0", where the text key "0" is expected. */
  lemma TagZeroKey()
    ensures TagKeyOf([ZERO, ZERO, ZERO]) == Ok(BytesKey([ZERO]))
    ensures TagKeyIntended([ZERO, ZERO, ZERO]) == Ok(TextKey("0"))
  {
    var t: seq<uint8> := [ZERO, ZERO, ZERO];
    assert t[1..][1..][1..] == [];
    assert LStripZeros(t) == [];
  }

  /** Leading zeros only are stripped: b"010" becomes "10". */
  lemma TagLeadingZeroKey()
    ensures TagKeyOf([ZERO, 49, ZERO]) == Ok(TextKey("10"))
  {
    var t: seq<uint8> := [ZERO, 49, ZERO];
    assert t[1..] == [49, ZERO];
    assert LStripZeros(t) == [49, ZERO];
    var text := AsciiText([49, ZERO]);
    assert text[0] == '1' && text[1] == '0';
    assert text == "10";
  }

  function Tags(dir: seq<DirEntry>): (r: seq<seq<uint8>>)
    ensures |r| == |dir| && forall i :: 0 <= i < |dir| ==> r[i] == dir[i].tag
  {
    if dir == [] then [] else [dir[0].tag] + Tags(dir[1..])
  }

  function Lookup<V>(m: map<TagKey, seq<V>>, k: TagKey): seq<V>
  {
    if k in m then m[k] else []
  }

  /**
    Which key a tag gets: `AsWritten` is the source's `TagKeyOf`, with the
    bytes key b"0" for an all-zero tag; `Intended` is `TagKeyIntended`, the
    text key "0" the test module expects.
  */
  datatype KeyRule = AsWritten | Intended

  function KeyOf(rule: KeyRule, tag: seq<uint8>): Result<TagKey, Error>
  {
    match rule
    case AsWritten => TagKeyOf(tag)
    case Intended => TagKeyIntended(tag)
  }

  /** Under either rule a tag fails exactly when it is not ASCII, and then with UnicodeDecodeError. */
  lemma KeyOfErr(rule: KeyRule, tag: seq<uint8>)
    ensures KeyOf(rule, tag).Err? <==> !IsAscii(tag)
    ensures KeyOf(rule, tag).Err? ==> KeyOf(rule, tag).error == UnicodeDecodeError
  {
    TagKeyOfCases(tag);
    TagKeyIntendedIsText(tag);
  }

  /** The `defaultdict(list)` after appending the first |tags| (tag, field) pairs in order. */
  function Grouped<V>(rule: KeyRule, tags: seq<seq<uint8>>, values: seq<V>): Result<map<TagKey, seq<V>>, Error>
    requires |tags| == |values|
    decreases |tags|
  {
    if tags == [] then Ok(map[])
    else
      var n := |tags| - 1;
      match Grouped(rule, tags[..n], values[..n])
      case Err(e) => Err(e)
      case Ok(m) =>
        match KeyOf(rule, tags[n])
        case Err(e) => Err(e)
        case Ok(k) => Ok(m[k := Lookup(m, k) + [values[n]]])
  }

  /**
    `con2dict`, with the fields left undecoded (decoding is the caller's
    codec); an all-zero tag is keyed by the bytes b"0", as written.
  */
  method Con2Dict<V>(dir: seq<DirEntry>, fields: seq<V>) returns (result: Result<map<TagKey, seq<V>>, Error>)
    ensures var n := if |dir| <= |fields| then |dir| else |fields|;
      result == Grouped(AsWritten, Tags(dir[..n]), fields[..n])
  {
    var n := if |dir| <= |fields| then |dir| else |fields|;
    ghost var tags := Tags(dir[..n]);
    ghost var values := fields[..n];
    var m: map<TagKey, seq<V>> := map[];
    var i := 0;
    while i < n
      invariant 0 <= i <= n && |tags| == |values| == n
      invariant Grouped(AsWritten, tags[..i], values[..i]) == Ok(m)
    {
      assert tags[i] == dir[i].tag && values[i] == fields[i];
      var key := TagKeyOf(dir[i].tag);
      if key.Err? {
        Con2DictFails(AsWritten, tags, values, i, m);
        return Err(key.error);
      }
      var tag := key.value;
      Con2DictStep(AsWritten, tags, values, i, m);
      m := m[tag := (if tag in m then m[tag] else []) + [fields[i]]];
      i := i + 1;
    }
    assert tags[..n] == tags && values[..n] == values;
    result := Ok(m);
  }

  lemma Con2DictFails<V>(rule: KeyRule, tags: seq<seq<uint8>>, values: seq<V>, i: nat, m: map<TagKey, seq<V>>)
    requires |tags| == |values| && i < |tags|
    requires Grouped(rule, tags[..i], values[..i]) == Ok(m)
    requires KeyOf(rule, tags[i]).Err?
    ensures Grouped(rule, tags, values) == Err(KeyOf(rule, tags[i]).error)
  {
    PrefixSnoc(tags, i);
    PrefixSnoc(values, i);
    GroupedErrPersists(rule, tags, values, i + 1);
  }

  lemma Con2DictStep<V>(rule: KeyRule, tags: seq<seq<uint8>>, values: seq<V>, i: nat, m: map<TagKey, seq<V>>)
    requires |tags| == |values| && i < |tags|
    requires Grouped(rule, tags[..i], values[..i]) == Ok(m)
    requires KeyOf(rule, tags[i]).Ok?
    ensures var k := KeyOf(rule, tags[i]).value;
      Grouped(rule, tags[..i + 1], values[..i + 1]) == Ok(m[k := (if k in m then m[k] else []) + [values[i]]])
  {
    PrefixSnoc(tags, i);
    PrefixSnoc(values, i);
    GroupedSnoc(rule, tags[..i + 1], values[..i + 1], m, KeyOf(rule, tags[i]).value);
  }

  lemma PrefixSnoc<X>(xs: seq<X>, i: nat)
    requires i < |xs|
    ensures xs[..i + 1][..i] == xs[..i] && xs[..i + 1][i] == xs[i]
  {
  }

  /** The last directory entry's field is appended to its key's list. */
  lemma GroupedSnoc<V>(rule: KeyRule, ts: seq<seq<uint8>>, vs: seq<V>, m: map<TagKey, seq<V>>, k: TagKey)
    requires |ts| == |vs| > 0
    requires Grouped(rule, ts[..|ts| - 1], vs[..|vs| - 1]) == Ok(m)
    requires KeyOf(rule, ts[|ts| - 1]) == Ok(k)
    ensures Grouped(rule, ts, vs) == Ok(m[k := Lookup(m, k) + [vs[|vs| - 1]]])
  {
  }

  lemma {:induction false} GroupedErrPersists<V>(rule: KeyRule, tags: seq<seq<uint8>>, values: seq<V>, i: nat)
    requires |tags| == |values| && i <= |tags|
    requires Grouped(rule, tags[..i], values[..i]).Err?
    ensures Grouped(rule, tags, values) == Err(UnicodeDecodeError)
    decreases |tags| - i
  {
    if i < |tags| {
      assert tags[..i + 1][..i] == tags[..i] && values[..i + 1][..i] == values[..i];
      GroupedErrPersists(rule, tags, values, i + 1);
    } else {
      assert tags[..i] == tags && values[..i] == values;
      GroupedOnlyDecodeErrors(rule, tags, values);
    }
  }

  lemma {:induction false} GroupedOnlyDecodeErrors<V>(rule: KeyRule, tags: seq<seq<uint8>>, values: seq<V>)
    requires |tags| == |values|
    ensures Grouped(rule, tags, values).Err? ==> Grouped(rule, tags, values).error == UnicodeDecodeError
    decreases |tags|
  {
    if tags != [] {
      GroupedOnlyDecodeErrors(rule, tags[..|tags| - 1], values[..|values| - 1]);
    }
  }

  /** The fields whose tag maps to key k, in directory order. */
  function Select<V>(rule: KeyRule, tags: seq<seq<uint8>>, values: seq<V>, k: TagKey): seq<V>
    requires |tags| == |values|
    decreases |tags|
  {
    if tags == [] then []
    else
      var n := |tags| - 1;
      Select(rule, tags[..n], values[..n], k) + (if KeyOf(rule, tags[n]) == Ok(k) then [values[n]] else [])
  }

  /** With the intended key, a record with one b"000" field holding b"data" gives {"0": [b"data"]}. */
  lemma GroupedTagZero()
    ensures Grouped(Intended, [[ZERO, ZERO, ZERO]], [[100 as uint8, 97, 116, 97]]) == Ok(map[TextKey("0") := [[100 as uint8, 97, 116, 97]]])
  {
    var tags: seq<seq<uint8>> := [[ZERO, ZERO, ZERO]];
    var values: seq<seq<uint8>> := [[100, 97, 116, 97]];
    TagZeroKey();
    assert tags[..0] == [] && values[..0] == [];
    var empty: map<TagKey, seq<seq<uint8>>> := map[];
    GroupedSnoc(Intended, tags, values, empty, TextKey("0"));
    assert Lookup(empty, TextKey("0")) + [values[0]] == values;
  }

  /** As written, the same record gives {b"0": [b"data"]}: the key is bytes, not the expected "0". */
  lemma GroupedTagZeroAsWritten()
    ensures Grouped(AsWritten, [[ZERO, ZERO, ZERO]], [[100 as uint8, 97, 116, 97]]) == Ok(map[BytesKey([ZERO]) := [[100 as uint8, 97, 116, 97]]])
  {
    var tags: seq<seq<uint8>> := [[ZERO, ZERO, ZERO]];
    var values: seq<seq<uint8>> := [[100, 97, 116, 97]];
    TagZeroKey();
    assert tags[..0] == [] && values[..0] == [];
    var empty: map<TagKey, seq<seq<uint8>>> := map[];
    GroupedSnoc(AsWritten, tags, values, empty, BytesKey([ZERO]));
    assert Lookup(empty, BytesKey([ZERO])) + [values[0]] == values;
  }

  predicate NotAllZero(tag: seq<uint8>)
  {
    exists i :: 0 <= i < |tag| && tag[i] != ZERO
  }

  /** Without an all-zero tag, the code as written and the intended key give the same dictionary. */
  lemma {:induction false} GroupedRulesAgree<V>(tags: seq<seq<uint8>>, values: seq<V>)
    requires |tags| == |values|
    requires forall j :: 0 <= j < |tags| ==> NotAllZero(tags[j])
    ensures Grouped(AsWritten, tags, values) == Grouped(Intended, tags, values)
    decreases |tags|
  {
    if tags != [] {
      var n := |tags| - 1;
      assert forall j :: 0 <= j < n ==> tags[..n][j] == tags[j] && NotAllZero(tags[..n][j]);
      GroupedRulesAgree(tags[..n], values[..n]);
      TagKeyIntendedIsText(tags[n]);
    }
  }

  /** The dictionary fails exactly when some tag is not ASCII. */
  lemma {:induction false} GroupedFails<V>(rule: KeyRule, tags: seq<seq<uint8>>, values: seq<V>)
    requires |tags| == |values|
    ensures Grouped(rule, tags, values).Err? <==> AnyNonAscii(tags)
    decreases |tags|
  {
    if tags != [] {
      var n := |tags| - 1;
      GroupedFails(rule, tags[..n], values[..n]);
      KeyOfErr(rule, tags[n]);
      assert Grouped(rule, tags, values).Err? <==>
        Grouped(rule, tags[..n], values[..n]).Err? || KeyOf(rule, tags[n]).Err?;
      NonAsciiSplit(tags);
    }
  }

  predicate AnyNonAscii(tags: seq<seq<uint8>>)
  {
    exists i :: 0 <= i < |tags| && !IsAscii(tags[i])
  }

  lemma NonAsciiSplit(tags: seq<seq<uint8>>)
    requires |tags| >= 1
    ensures AnyNonAscii(tags) <==> AnyNonAscii(tags[..|tags| - 1]) || !IsAscii(tags[|tags| - 1])
  {
    var n := |tags| - 1;
    if exists i :: 0 <= i < |tags| && !IsAscii(tags[i]) {
      var i :| 0 <= i < |tags| && !IsAscii(tags[i]);
      if i < n {
        assert tags[..n][i] == tags[i];
      }
    }
    if exists i :: 0 <= i < n && !IsAscii(tags[..n][i]) {
      var i :| 0 <= i < n && !IsAscii(tags[..n][i]);
      assert tags[..n][i] == tags[i];
    }
  }

  /**
    Otherwise every field is appended once, under its tag's key, and each
    key's list keeps directory order; the keys present are exactly those that
    received a field, since the `defaultdict` creates a key only on append.
  */
  lemma {:induction false} GroupedSelects<V>(rule: KeyRule, tags: seq<seq<uint8>>, values: seq<V>)
    requires |tags| == |values|
    requires Grouped(rule, tags, values).Ok?
    ensures forall k :: Lookup(Grouped(rule, tags, values).value, k) == Select(rule, tags, values, k)
    ensures forall k :: k in Grouped(rule, tags, values).value <==> Select(rule, tags, values, k) != []
    decreases |tags|
  {
    if tags != [] {
      var n := |tags| - 1;
      var prev := Grouped(rule, tags[..n], values[..n]);
      assert prev.Ok?;
      GroupedSelects(rule, tags[..n], values[..n]);
      var key := KeyOf(rule, tags[n]).value;
      var m := Grouped(rule, tags, values).value;
      assert m == prev.value[key := Lookup(prev.value, key) + [values[n]]];
      forall k
        ensures Lookup(m, k) == Select(rule, tags, values, k)
        ensures k in m <==> Select(rule, tags, values, k) != []
      {
        assert Select(rule, tags, values, k) ==
          Select(rule, tags[..n], values[..n], k) + (if key == k then [values[n]] else []);
      }
    }
  }
}

=== FILE: wrappers.dfy ===
/** The error path of the adapters: a value or the exception the source raises. */
module Wrappers {

  datatype Result<T, E> = Ok(value: T) | Err(error: E)

  /** The exceptions raised by the modelled code. */
  datatype Error =
    | CheckError          // construct.CheckError: a record check failed
    | UnicodeDecodeError  // bytes.decode("ascii") met a byte above 127
    | UpdateError         // dict.update rejected a value: TypeError or ValueError, depending on the value
}
